=== FILE: README.md ===
# METAR lookup service — a Dafny model

The repository is a small Flask service that answers
`GET /metar/info?scode=<station>&nocache=<0|1>` with the latest METAR
weather report of an airport station. It downloads the report from the NOAA
station file `http://tgftp.nws.noaa.gov/data/observations/metar/stations/<CODE>.TXT`,
parses it, and keeps the parsed record in Redis for 300 seconds. The
repository holds two versions of the service:

- `weather_api.py` parses the report with one anchored regular expression of
  thirteen capture groups (timestamp, station, two wind groups, visibility,
  two cloud layers, temperature, dew point, pressure, remarks), and answers
  with the station code, the record's timestamp and the whole record;
- `venv/weather_api.py` splits the report into lines and takes line 0,
  verbatim, as the observation time. It scans the later lines in order and
  skips every line containing `TEMP`. The wind is the stripped last remaining
  line containing `KT`. The temperature is the first match of the temperature
  pattern in the last remaining line without `KT` that has a match; a line
  with no match keeps the value found before it. The answer carries those
  three fields.

Everything else is shared: the fetch, the cache-aside lookup and the request
handling. The model follows that structure.

| module | file | models |
|---|---|---|
| `Text` | text.dfy | `str.strip`, `str.split("\n")`, `in` on strings |
| `Upstream` | upstream.dfy | `fetch_metar_data`: the URL and the status check |
| `StrictMetar` | strict_metar.dfy | the thirteen-group pattern and `parse_metar_data` of `weather_api.py` |
| `TemperaturePattern` | temperature_pattern.dfy | `re.search(r'(M?\d+/\d+\|M?\d+M?\d+)', line)` |
| `LineScanMetar` | line_scan_metar.dfy | `parse_metar_data` of `venv/weather_api.py` |
| `CacheAside` | cache_aside.dfy | `get_weather_info`, over any parser |
| `Request` | request.dfy | the `scode` and `nocache` parameters, including Python's `int()` |
| `InfoHandler` | info_handler.dfy | `get_weather`: status codes, bodies and the store afterwards |
| `StrictService`, `ScanService` | strict_service.dfy, scan_service.dfy | the handler with each parser, end to end |

The environment is explicit. The network is a function from URL to reply
(a response with a status and a body, or a transport failure). The Redis
store is a map from station code to record and expiry time, read at an
explicit clock `now` in seconds. The parser is a parameter of the lookup and
of the handler, so both versions share one proof of the caching and request
logic.

Four behaviours of the code are easy to miss:

- A report whose third group has five digits before the `Z`, such as
  `31012Z`, is rejected: line 16 of `weather_api.py` asks for `\d{6}Z` there
  (`StrictMetar.FiveDigitGroupRejected`), so the service answers 404.
- A failure to reach the upstream server is not a "no data" case.
  `requests.get` raises, nothing catches it, and Flask answers 500
  (`CacheAside.Outcome.Crashed`).
- A `nocache` value that `int()` rejects raises in the same way, and the
  answer is 500, not 400. That includes a decimal of more than 4300 digits,
  Python's default limit on integer conversion from text
  (`Request.OverlongNocacheRaises`).
- `int()` skips less whitespace than `str.strip` removes. The ASCII
  separators U+001C to U+001F count as whitespace for `str.isspace()` but not
  for `int()`, so a `nocache` that starts with one of them raises and the
  answer is 500 (`Request.SeparatorNotSkipped`).

The names of the strict record's fields follow the source. Group 3, shaped
`\d{6}Z`, is stored as `wind.direction`, and group 4, shaped `\d{5}KT`, as
`wind.speed`.

## Model

| member | source | states |
|---|---|---|
| Text.Strip | venv/weather_api.py:37 | the stripped line occurs in the line with only whitespace before and after it, and neither starts nor ends with whitespace |
| Text.Split | venv/weather_api.py:25 | the pieces contain no line break, joined with line breaks they give the text back, and there is a single piece exactly when the text has no line break |
| Text.SplitJoin | venv/weather_api.py:25 | splitting the join of break-free pieces gives the pieces back |
| Text.SplitFirst | venv/weather_api.py:25-29 | splitting `a + "\n" + b` gives `a` as the first line, followed by the lines of `b` |
| Upstream.MetarUrl | weather_api.py:13-20 | the URL is the NOAA base, the station code verbatim and `.TXT` |
| Upstream.MetarUrlInjective | weather_api.py:20 | different station codes build different URL strings |
| Upstream.FetchMetar | weather_api.py:19-24 | text comes back exactly on a 200 response, and it is the response body; a transport failure raises |
| StrictMetar.UpperPrefixLength | weather_api.py:16 | `[A-Z]+` takes the whole run of capitals: all of the prefix is capitals and the next character is not |
| StrictMetar.FieldShapes | weather_api.py:16 | a record fits the pattern exactly when each field has its group's shape: the timestamp shape, four word characters, six digits and `Z`, five digits and `KT`, four digits, capitals and three digits twice, two and two digits, four digits, capitals |
| StrictMetar.Match | weather_api.py:16 | a match splits the text into a rendered record that fits the pattern, followed by text that does not continue the remarks |
| StrictMetar.Parse | weather_api.py:27-71 | every record produced fits the pattern |
| StrictMetar.MatchGroupsOfGlue | weather_api.py:16 | reading the groups back from glued tokens that fit them gives exactly those tokens and the tail |
| StrictMetar.RoundTrip | weather_api.py:28-69 | rendering a record that fits the pattern and appending any text not starting with a capital parses back to that record |
| StrictMetar.ParseSomeIff | weather_api.py:28-29 | parsing succeeds exactly when the text starts with the rendering of some record that fits the pattern |
| StrictMetar.TrailingTextIgnored | weather_api.py:28 | `re.match` is anchored only at the start: whatever follows the matched part of an accepted text can be replaced by any text that does not continue the remarks, and the parse stays the same |
| StrictMetar.RenderedPrefixMatches | weather_api.py:16 | a run of capitals right after a rendered record is read as more of the remarks |
| StrictMetar.ExtendRemarks | weather_api.py:16 | appending capitals to the remarks keeps the record fitting the pattern and appends them to its text |
| StrictMetar.LeadingGroupsAt | weather_api.py:16 | an accepted text holds the timestamp at offsets 0–15, the station at 17–20 and the third group at 22–28 |
| StrictMetar.DirectionDigit | weather_api.py:16 | an accepted text has a digit at offset 27, the last of the third group's six digits |
| StrictMetar.DirectionNeedsSixDigits | weather_api.py:16 | a text without a digit at offset 27 is rejected |
| StrictMetar.FiveDigitGroupRejected | weather_api.py:16 | the report with the five-digit group `31012Z` is rejected |
| StrictMetar.Build | weather_api.py:30-67 | the record holds exactly the thirteen captured groups in pattern order: the wind is groups 3 and 4, and the clouds are groups 6 and 7 followed by groups 8 and 9 |
| StrictMetar.BuildOfGroups | weather_api.py:30-67 | the record assembled from a record's thirteen groups is that record |
| TemperaturePattern.DigitRun | venv/weather_api.py:40 | the run `\d+` takes from a position stops at the end of the text or at a character that is not a digit |
| TemperaturePattern.DigitRunDigits | venv/weather_api.py:40 | every character of that run is a digit, so with `DigitRun` the run is the whole run of digits from the position |
| TemperaturePattern.DigitRunAtLeast | venv/weather_api.py:40 | a stretch of `n` digits from a position makes the run there at least `n` long |
| TemperaturePattern.SearchFrom | venv/weather_api.py:40 | the search returns the leftmost position with a match, with that match's end, and no match starts earlier; when it finds nothing, no position matches |
| TemperaturePattern.MatchAt | venv/weather_api.py:40 | the text matched at a position is a token of the pattern (an optional `M`, then two or more digits, or digits, `/` or `M`, and digits) and is not followed by a digit; no longer token starts at that position; there is no match at a position only when no token of the pattern starts there |
| TemperaturePattern.FindTemperature | venv/weather_api.py:40-42 | the token found occurs in the line, is a token of the pattern, starts at a position before which no token starts, and is the longest token starting there; nothing is found only when no token starts anywhere in the line |
| TemperaturePattern.SeparatedLongest | venv/weather_api.py:40 | digits, a `/` or `M`, and the whole digit run after it make the longest token at their start |
| TemperaturePattern.RunLongest | venv/weather_api.py:40 | when no `/` or `M` and digit follow the digit run, the whole run is the longest token at its start |
| TemperaturePattern.TokenEndBound | venv/weather_api.py:40 | every token ends within the digit run after its optional `M`, or within the digit run after the `/` or `M` that follows it |
| TemperaturePattern.NoAlternativeNoToken | venv/weather_api.py:40 | when neither alternative of the pattern matches at a position, no token of the pattern starts there |
| TemperaturePattern.TokenStartsAlternative | venv/weather_api.py:40 | a token of the pattern starting at a position makes one of the two alternatives match there |
| TemperaturePattern.NoMatchNoToken | venv/weather_api.py:40 | positions where the search finds no match are positions where no token starts |
| TemperaturePattern.MatchShowsCue | venv/weather_api.py:40 | every match contains a digit followed by a digit, or by `/` or `M` and a digit |
| TemperaturePattern.CueMatches | venv/weather_api.py:40 | such a cue is enough for a match to start there |
| TemperaturePattern.FindTemperatureIff | venv/weather_api.py:40-42 | a line yields a temperature token exactly when it shows that cue somewhere |
| LineScanMetar.Step | venv/weather_api.py:34-42 | one line replaces the wind if it is a wind line, replaces the temperature if it is a temperature line, and otherwise changes nothing |
| LineScanMetar.Scan | venv/weather_api.py:33-42 | the wind is the stripped last line with `KT` and without `TEMP`; the temperature is the token of the last line with neither that has one; with no such line the starting value is kept |
| LineScanMetar.FreshScan | venv/weather_api.py:30-42 | the wind stays None exactly when no line sets it, and likewise the temperature |
| LineScanMetar.TempLineSkipped | venv/weather_api.py:34-35 | a line containing `TEMP` can be removed without changing the result |
| LineScanMetar.Parse | venv/weather_api.py:24-48 | the parse fails exactly when the text has no line break; the observation time is the text up to its first line break |
| LineScanMetar.ParseWind | venv/weather_api.py:36-37 | the wind is absent exactly when no line after the first sets it, and otherwise is the stripped last such line |
| LineScanMetar.ParseTemperature | venv/weather_api.py:39-42 | the temperature is absent exactly when no line after the first yields one, and otherwise is the token of the last such line |
| LineScanMetar.FirstLineIgnored | venv/weather_api.py:29-33 | the first line gives the observation time and takes no part in the wind or temperature |
| CacheAside.Get | weather_api.py:75 | a record is read exactly when its key is present and its entry has not expired, and it is the stored record |
| CacheAside.Put | weather_api.py:82 | the key holds the new record with an expiry 300 seconds on, and every other key keeps its entry |
| CacheAside.GetAfterPut | weather_api.py:75-82 | a write is read back by its key for the next 300 seconds and not after, and other keys read as before |
| CacheAside.GetWeatherInfo | weather_api.py:74-87 | a live entry is returned unless bypassed; otherwise a transport failure raises, a record is returned exactly when the fetch gives non-empty text the parser accepts, and only then is it stored for 300 seconds |
| CacheAside.HitSkipsFetch | weather_api.py:77-85 | on a hit without bypass, neither the network nor the parser affects the result |
| CacheAside.BypassIgnoresCache | weather_api.py:77 | with bypass, the outcome does not depend on what the store holds |
| CacheAside.OtherStationsUntouched | weather_api.py:82 | the entries of other stations are left as they were |
| CacheAside.FreshForTtl | weather_api.py:82-85 | a stored record is served for any request without bypass within the next 300 seconds, whatever the network and parser then do, and has expired from then on |
| CacheAside.FetchedAndStored | weather_api.py:78-83 | a bypass lookup whose fetch answers 200 with text the parser accepts returns that record and stores it |
| Request.PyInt | weather_api.py:99 | `int()` accepts text holding at least one and at most 4300 digits, and its value is non-zero exactly when the text has a digit from 1 to 9 |
| Request.Decide | weather_api.py:95-99 | a missing or empty `scode` is refused first; a non-empty `nocache` that `int()` rejects fails; otherwise the lookup proceeds for `scode`, bypassing exactly when `nocache` has a digit from 1 to 9 |
| Request.PyIntOfShowNat | weather_api.py:99 | `int()` reads back the decimal digits of every natural number of at most 4300 digits |
| Request.PyIntOfShowNegative | weather_api.py:99 | `int()` reads back `-` and the digits of every positive number of at most 4300 digits as its negation |
| Request.OverlongNocacheRaises | weather_api.py:99 | a `nocache` of more than 4300 digits makes `int()` raise, so the request fails |
| Request.DecimalZeroIff | weather_api.py:99 | a digit string is worth zero exactly when it has no digit from 1 to 9 |
| Request.SeparatorNotSkipped | weather_api.py:99 | a `nocache` that starts with one of U+001C to U+001F makes `int()` raise, so the request fails even though `str.strip` would remove that character |
| Request.SeparatorNotInt | weather_api.py:99 | `int()` reads no number from a text that starts with one of U+001C to U+001F |
| Request.BypassRequest | weather_api.py:99 | `nocache=1` with a station code asks for a bypass |
| InfoHandler.GetWeather | weather_api.py:94-112 | the status is 400, 500, 404 or 200; 400 with the station-code message exactly when `scode` is missing or empty, before any lookup; 500 on a bad `nocache` or a raised fetch; 404 with the not-available message exactly when the lookup finds nothing; 200 with the payload exactly when it finds a record; the store changes only on 200 |
| StrictService.Present | weather_api.py:103-107 | the payload carries the station code and the whole record, and `last_observation` is the record's own timestamp |
| StrictService.WellFormedReportServed | weather_api.py:98-108 | a bypass request whose upstream sends a rendered record is answered 200 with the station code, the record's timestamp and the record, and the record is stored for 300 seconds |
| StrictService.RejectedReportNotFound | weather_api.py:109-110 | on a miss, a report the pattern rejects is answered 404 and the store is unchanged |
| ScanService.Present | venv/weather_api.py:81-86 | the payload carries the station code, and the reading can be read back from its three other fields |
| ScanService.TextWithLineBreakServed | venv/weather_api.py:76-87 | a bypass request whose upstream text has a line break is answered 200 with the fields of its reading, and the reading is stored for 300 seconds |
| ScanService.TextWithoutLineBreakNotFound | venv/weather_api.py:88-89 | on a miss, an upstream text with no line break is answered 404 and the store is unchanged |

## Left out

- Flask itself is not modelled: routing, `request.args`, `jsonify`, the `/metar/ping` route and `app.run`. The handler is a function from the two query parameters to a status and a body.
- Redis is a map with expiry times. Connection errors, eviction under memory pressure and millisecond expiry are left out. An entry is live while `now` is before its write time plus 300. One `now` serves a whole request, though `setex` runs only after `requests.get` returns, which has no timeout: on the fetch path `now` is the moment of the write, so `FreshForTtl`'s 300 seconds count from the write, not from the request. A miss at that moment was also a miss when the request began, since an entry only expires as time goes on.
- JSON is not modelled. A stored record is assumed to come back unchanged from `json.loads(json.dumps(...))`, which holds for these records of strings, lists and None.
- Concurrency between requests is left out. Two requests racing on the same key are not modelled, since each request is a function of the store it reads.
- Digits and letters are ASCII. Python's `\d`, `\w` and `int()` also accept non-ASCII digits and letters, and the model does not. Whitespace is modelled in full with two sets: what `str.strip` removes (every `str.isspace()` character, non-ASCII ones included) and what `int()` skips around a literal (the same set without U+001C to U+001F).
- `TemperaturePattern` models only the one pattern the service uses, worked out by hand. No general regular-expression engine is modelled.
- `requests.get` can raise for reasons other than a transport failure, such as a malformed URL. All of them are one `TransportError` reply.
- The unused imports (`os`, `datetime`, `timedelta`) have no behaviour to model.
- Upstream.MetarUrlInjective: `requests` normalises the URL before sending it (percent-encoding, dropping a `#` fragment), so two codes can still reach the same resource. The network is keyed by the URL string the code builds, which absorbs that normalisation.
- Request.PyInt: the digit limit is Python's default of 4300, which applies from Python 3.11 on. Older interpreters have no limit, and a limit changed with `sys.set_int_max_str_digits` or `PYTHONINTMAXSTRDIGITS` is not modelled.

=== FILE: cache_aside.dfy ===
/**
 * `get_weather_info`, identical in both files apart from the parser it calls:
 * a cache-aside lookup over a key-value store with a 300-second expiry. The
 * store is an explicit map from station code to record and expiry time, read
 * at an explicit clock `now` (seconds); the record is stored as is, standing
 * for its JSON text, which the service writes with `json.dumps` and reads back
 * with `json.loads`. The parser is a parameter, so the same lookup serves both
 * parsers.
 */
module CacheAside {
  import opened Wrappers
  import opened Upstream

  /** The expiry `setex` is given on every write, in seconds */
  const Ttl: int := 300

  datatype Entry<R> = Entry(record: R, expiresAt: int)

  type Cache<R> = map<string, Entry<R>>

  /** The store's `get`: the record while its entry has not expired, otherwise nothing */
  function Get<R>(cache: Cache<R>, key: string, now: int): (r: Option<R>)
    ensures r.Some? ==> key in cache && r.value == cache[key].record
    ensures r.None? <==> key !in cache || cache[key].expiresAt <= now
  {
    if key in cache && now < cache[key].expiresAt then Some(cache[key].record) else None
  }

  /**
   * The store's `setex(key, Ttl, value)` at time `now`: the key holds the new
   * record for `Ttl` seconds, and every other key keeps its entry.
   */
  function Put<R>(cache: Cache<R>, key: string, record: R, now: int): (r: Cache<R>)
    ensures r.Keys == cache.Keys + {key}
    ensures r[key].record == record && r[key].expiresAt - now == Ttl
    ensures forall k :: k in cache && k != key ==> r[k] == cache[k]
  {
    cache[key := Entry(record, now + Ttl)]
  }

  /**
   * A write is read back by the same key until `Ttl` seconds have passed and
   * not after, and it does not change what any other key reads.
   */
  lemma GetAfterPut<R>(cache: Cache<R>, key: string, record: R, now: int, later: int, other: string)
    ensures Get(Put(cache, key, record, now), key, later) == (if later < now + Ttl then Some(record) else None)
    ensures other != key ==> Get(Put(cache, key, record, now), other, later) == Get(cache, other, later)
  {
  }

  /** What `get_weather_info` ends with: a record, None, or an exception from the fetch */
  datatype Outcome<R> = Found(record: R) | Absent | Crashed

  datatype Lookup<R> = Lookup(outcome: Outcome<R>, cache: Cache<R>)

  /** The fetch-and-parse path is taken on a bypass request or on a miss */
  predicate Refreshes<R>(cache: Cache<R>, now: int, station: string, bypass: bool) {
    bypass || Get(cache, station, now).None?
  }

  /** The text the fetch-and-parse path works on, when there is any */
  predicate Usable(f: Fetched) {
    f.Text? && f.text != ""
  }

  /**
   * `get_weather_info(station, bypass)`. A live entry is returned as is unless
   * the request bypasses the cache. Otherwise the station is fetched; a fetch
   * that gives no text or empty text, or a parse that fails, gives None and
   * leaves the store alone, and a successful parse is written under the
   * station code with a 300-second expiry and returned.
   */
  function GetWeatherInfo<R>(parse: string -> Option<R>, network: string -> Reply, cache: Cache<R>,
                             now: int, station: string, bypass: bool): (r: Lookup<R>)
    ensures !Refreshes(cache, now, station, bypass) ==> r == Lookup(Found(Get(cache, station, now).value), cache)
    ensures Refreshes(cache, now, station, bypass) ==>
      (r.outcome.Crashed? <==> FetchMetar(network, station).Raised?)
    ensures Refreshes(cache, now, station, bypass) ==>
      (r.outcome.Found? <==> Usable(FetchMetar(network, station)) && parse(FetchMetar(network, station).text).Some?)
    ensures Refreshes(cache, now, station, bypass) && r.outcome.Found? ==>
      && r.outcome.record == parse(FetchMetar(network, station).text).value
      && r.cache == Put(cache, station, r.outcome.record, now)
    ensures !r.outcome.Found? ==> r.cache == cache
  {
    if !bypass && Get(cache, station, now).Some? then
      Lookup(Found(Get(cache, station, now).value), cache)
    else
      match FetchMetar(network, station)
      case Raised => Lookup(Crashed, cache)
      case NoText => Lookup(Absent, cache)
      case Text(text) =>
        if text == "" then Lookup(Absent, cache)
        else
          match parse(text)
          case None => Lookup(Absent, cache)
          case Some(record) => Lookup(Found(record), Put(cache, station, record, now))
  }

  /** A hit neither fetches nor parses: the network and the parser make no difference */
  lemma HitSkipsFetch<R>(parse: string -> Option<R>, parse': string -> Option<R>,
                         network: string -> Reply, network': string -> Reply,
                         cache: Cache<R>, now: int, station: string)
    requires Get(cache, station, now).Some?
    ensures GetWeatherInfo(parse, network, cache, now, station, false)
         == GetWeatherInfo(parse', network', cache, now, station, false)
  {
  }

  /** A bypass request gives the same answer whatever the store holds */
  lemma BypassIgnoresCache<R>(parse: string -> Option<R>, network: string -> Reply,
                              cache: Cache<R>, cache': Cache<R>, now: int, station: string)
    ensures GetWeatherInfo(parse, network, cache, now, station, true).outcome
         == GetWeatherInfo(parse, network, cache', now, station, true).outcome
  {
  }

  /** Only the requested station's entry can change */
  lemma OtherStationsUntouched<R>(parse: string -> Option<R>, network: string -> Reply,
                                  cache: Cache<R>, now: int, station: string, bypass: bool, other: string)
    requires other != station
    ensures var r := GetWeatherInfo(parse, network, cache, now, station, bypass);
            (other in r.cache <==> other in cache) && (other in cache ==> r.cache[other] == cache[other])
  {
  }

  /**
   * A fresh record stays served for 300 seconds: a second lookup of the same
   * station without bypass, at any time before the expiry, returns it without
   * consulting the network, and from the expiry on the entry is gone.
   */
  lemma FreshForTtl<R>(parse: string -> Option<R>, network: string -> Reply, cache: Cache<R>,
                       now: int, station: string, bypass: bool,
                       parse': string -> Option<R>, network': string -> Reply, later: int)
    requires Refreshes(cache, now, station, bypass)
    requires GetWeatherInfo(parse, network, cache, now, station, bypass).outcome.Found?
    ensures var r := GetWeatherInfo(parse, network, cache, now, station, bypass);
            && (now <= later < now + Ttl ==>
                  GetWeatherInfo(parse', network', r.cache, later, station, false) == Lookup(r.outcome, r.cache))
            && (later >= now + Ttl ==> Get(r.cache, station, later).None?)
  {
  }

  /** A bypass lookup whose fetch answers 200 with text the parser accepts returns and stores the parsed record */
  lemma FetchedAndStored<R>(parse: string -> Option<R>, network: string -> Reply, cache: Cache<R>,
                            now: int, station: string, text: string, record: R)
    requires network(MetarUrl(station)) == Response(200, text) && text != "" && parse(text) == Some(record)
    ensures GetWeatherInfo(parse, network, cache, now, station, true) == Lookup(Found(record), Put(cache, station, record, now))
  {
  }
}

=== FILE: info_handler.dfy ===
/**
 * The `/metar/info` handler, `get_weather`, identical in both files except
 * for the payload it builds from a record. Flask's routing and `jsonify` are
 * not modelled: the handler is a function from the two query parameters, the
 * store, the clock and the network to a status, a body and the new store.
 * An exception that escapes the handler (from `int()` or from the fetch) is
 * Flask's 500 response.
 */
module InfoHandler {
  import opened Wrappers
  import opened Upstream
  import opened CacheAside
  import opened Request

  const InvalidRequestMessage: string := "Invalid request. Please provide a station code."
  const NotAvailableMessage: string := "Weather information not available for the station."

  /** The JSON body: `{"data": ...}`, `{"error": ...}`, or Flask's error page */
  datatype Body<D> = Data(data: D) | Error(message: string) | InternalError

  datatype HttpResponse<D> = HttpResponse(status: int, body: Body<D>)

  /** The response and the store after the request */
  datatype Handled<R, D> = Handled(response: HttpResponse<D>, cache: Cache<R>)

  /**
   * `get_weather`: refuse a missing station code with 400 before anything
   * else, fail with 500 on a `nocache` that is not an integer, and otherwise
   * look the station up, answering 200 with the payload built from the record
   * or 404 when there is none.
   */
  function GetWeather<R, D>(parse: string -> Option<R>, present: (string, R) -> D,
                            network: string -> Reply, cache: Cache<R>, now: int,
                            scode: Option<string>, nocache: Option<string>): (r: Handled<R, D>)
    ensures r.response.status in {200, 400, 404, 500}
    ensures Decide(scode, nocache).MissingStation? <==> r.response.status == 400
    ensures Decide(scode, nocache).MissingStation? ==> r == Handled(HttpResponse(400, Error(InvalidRequestMessage)), cache)
    ensures Decide(scode, nocache).BadNocache? ==> r == Handled(HttpResponse(500, InternalError), cache)
    ensures r.response.status != 200 ==> r.cache == cache
    ensures r.response.status == 404 ==> r.response.body == Error(NotAvailableMessage)
    ensures Decide(scode, nocache).Proceed? ==>
      var d := Decide(scode, nocache);
      var l := GetWeatherInfo(parse, network, cache, now, d.station, d.bypass);
      && r.cache == l.cache
      && (r.response.status == 200 <==> l.outcome.Found?)
      && (r.response.status == 404 <==> l.outcome.Absent?)
      && (l.outcome.Found? ==> r.response.body == Data(present(scode.value, l.outcome.record)))
  {
    match Decide(scode, nocache)
    case MissingStation => Handled(HttpResponse(400, Error(InvalidRequestMessage)), cache)
    case BadNocache => Handled(HttpResponse(500, InternalError), cache)
    case Proceed(station, bypass) =>
      var l := GetWeatherInfo(parse, network, cache, now, station, bypass);
      match l.outcome
      case Found(record) => Handled(HttpResponse(200, Data(present(station, record))), l.cache)
      case Absent => Handled(HttpResponse(404, Error(NotAvailableMessage)), l.cache)
      case Crashed => Handled(HttpResponse(500, InternalError), l.cache)
  }
}

=== FILE: line_scan_metar.dfy ===
/**
 * The line-scan METAR parser of venv/weather_api.py. The text is split on
 * newlines; the first line is the observation time, and the later lines are
 * scanned in order with "last writer wins": a line mentioning `TEMP` is
 * skipped, a line mentioning `KT` sets the wind to the stripped line, and any
 * other line sets the temperature to its first temperature-like token, if it
 * has one.
 */
module LineScanMetar {
  import opened Wrappers
  import opened Text
  import opened TemperaturePattern

  /** The three-field record the line scan produces */
  datatype Reading = Reading(observationTime: string, temperature: Option<string>, wind: Option<string>)

  /** The two values the scan loop carries from line to line */
  datatype ScanState = ScanState(temperature: Option<string>, wind: Option<string>)

  /** A line that sets the wind: it mentions `KT` and not `TEMP` */
  predicate IsWindLine(line: string) {
    !Contains(line, "TEMP") && Contains(line, "KT")
  }

  /** A line that sets the temperature: no `TEMP`, no `KT`, and a temperature-like token */
  predicate IsTemperatureLine(line: string) {
    !Contains(line, "TEMP") && !Contains(line, "KT") && FindTemperature(line).Some?
  }

  /**
   * One pass of the loop body: a wind line replaces the wind, a temperature
   * line replaces the temperature, and every other line changes nothing.
   */
  function Step(st: ScanState, line: string): (r: ScanState)
    ensures r.wind == (if IsWindLine(line) then Some(Strip(line)) else st.wind)
    ensures r.temperature == (if IsTemperatureLine(line) then FindTemperature(line) else st.temperature)
    ensures !IsWindLine(line) && !IsTemperatureLine(line) ==> r == st
  {
    if Contains(line, "TEMP") then st
    else if Contains(line, "KT") then st.(wind := Some(Strip(line)))
    else
      match FindTemperature(line)
      case Some(t) => st.(temperature := Some(t))
      case None => st
  }

  /** `k` is the last wind line of `lines` */
  predicate LastWindLine(lines: seq<string>, k: int) {
    0 <= k < |lines| && IsWindLine(lines[k]) && forall m :: k < m < |lines| ==> !IsWindLine(lines[m])
  }

  /** `k` is the last temperature line of `lines` */
  predicate LastTemperatureLine(lines: seq<string>, k: int) {
    0 <= k < |lines| && IsTemperatureLine(lines[k]) && forall m :: k < m < |lines| ==> !IsTemperatureLine(lines[m])
  }

  /**
   * The loop over `lines`, started from `st`. The wind comes from the last
   * wind line and the temperature from the last temperature line; when there
   * is no such line the starting value survives.
   */
  function Scan(st: ScanState, lines: seq<string>): (r: ScanState)
    ensures (forall k :: 0 <= k < |lines| ==> !IsWindLine(lines[k])) ==> r.wind == st.wind
    ensures forall k :: LastWindLine(lines, k) ==> r.wind == Some(Strip(lines[k]))
    ensures (forall k :: 0 <= k < |lines| ==> !IsTemperatureLine(lines[k])) ==> r.temperature == st.temperature
    ensures forall k :: LastTemperatureLine(lines, k) ==> r.temperature == FindTemperature(lines[k])
    decreases |lines|
  {
    if |lines| == 0 then st
    else
      var r := Scan(Step(st, lines[0]), lines[1..]);
      WindFromTail(st, lines, r);
      TemperatureFromTail(st, lines, r);
      r
  }

  /** The wind after the first line and the rest, from what the rest alone gives */
  lemma WindFromTail(st: ScanState, lines: seq<string>, r: ScanState)
    requires |lines| > 0
    requires (forall k :: 0 <= k < |lines[1..]| ==> !IsWindLine(lines[1..][k])) ==> r.wind == Step(st, lines[0]).wind
    requires forall k :: LastWindLine(lines[1..], k) ==> r.wind == Some(Strip(lines[1..][k]))
    ensures (forall k :: 0 <= k < |lines| ==> !IsWindLine(lines[k])) ==> r.wind == st.wind
    ensures forall k :: LastWindLine(lines, k) ==> r.wind == Some(Strip(lines[k]))
  {
    LastLinesOfTail(lines);
    forall k | LastWindLine(lines, k)
      ensures r.wind == Some(Strip(lines[k]))
    {
      if k > 0 {
        assert lines[1..][k - 1] == lines[k];
      }
    }
  }

  /** The temperature after the first line and the rest, from what the rest alone gives */
  lemma TemperatureFromTail(st: ScanState, lines: seq<string>, r: ScanState)
    requires |lines| > 0
    requires (forall k :: 0 <= k < |lines[1..]| ==> !IsTemperatureLine(lines[1..][k])) ==> r.temperature == Step(st, lines[0]).temperature
    requires forall k :: LastTemperatureLine(lines[1..], k) ==> r.temperature == FindTemperature(lines[1..][k])
    ensures (forall k :: 0 <= k < |lines| ==> !IsTemperatureLine(lines[k])) ==> r.temperature == st.temperature
    ensures forall k :: LastTemperatureLine(lines, k) ==> r.temperature == FindTemperature(lines[k])
  {
    LastLinesOfTail(lines);
    forall k | LastTemperatureLine(lines, k)
      ensures r.temperature == FindTemperature(lines[k])
    {
      if k > 0 {
        assert lines[1..][k - 1] == lines[k];
      }
    }
  }

  /** How the last wind and temperature lines of `lines` sit in `lines[1..]` */
  lemma LastLinesOfTail(lines: seq<string>)
    requires |lines| > 0
    ensures forall k :: 1 <= k < |lines| && LastWindLine(lines, k) ==> LastWindLine(lines[1..], k - 1)
    ensures forall k :: 1 <= k < |lines| && LastTemperatureLine(lines, k) ==> LastTemperatureLine(lines[1..], k - 1)
    ensures LastWindLine(lines, 0) ==> forall k :: 0 <= k < |lines[1..]| ==> !IsWindLine(lines[1..][k])
    ensures LastTemperatureLine(lines, 0) ==> forall k :: 0 <= k < |lines[1..]| ==> !IsTemperatureLine(lines[1..][k])
    ensures (forall k :: 0 <= k < |lines| ==> !IsWindLine(lines[k])) ==> forall k :: 0 <= k < |lines[1..]| ==> !IsWindLine(lines[1..][k])
    ensures (forall k :: 0 <= k < |lines| ==> !IsTemperatureLine(lines[k])) ==> forall k :: 0 <= k < |lines[1..]| ==> !IsTemperatureLine(lines[1..][k])
  {
    assert forall k :: 1 <= k < |lines| ==> lines[1..][k - 1] == lines[k];
  }

  /** Some wind line means some last wind line */
  lemma {:induction false} LastWindLineExists(lines: seq<string>, k: int)
    requires 0 <= k < |lines| && IsWindLine(lines[k])
    ensures exists j :: LastWindLine(lines, j)
    decreases |lines| - k
  {
    if !LastWindLine(lines, k) {
      var m :| k < m < |lines| && IsWindLine(lines[m]);
      LastWindLineExists(lines, m);
    }
  }

  /** Some temperature line means some last temperature line */
  lemma {:induction false} LastTemperatureLineExists(lines: seq<string>, k: int)
    requires 0 <= k < |lines| && IsTemperatureLine(lines[k])
    ensures exists j :: LastTemperatureLine(lines, j)
    decreases |lines| - k
  {
    if !LastTemperatureLine(lines, k) {
      var m :| k < m < |lines| && IsTemperatureLine(lines[m]);
      LastTemperatureLineExists(lines, m);
    }
  }

  /** Starting from no wind and no temperature, each stays None exactly when no line sets it */
  lemma FreshScan(lines: seq<string>)
    ensures Scan(ScanState(None, None), lines).wind.None? <==> forall k :: 0 <= k < |lines| ==> !IsWindLine(lines[k])
    ensures Scan(ScanState(None, None), lines).temperature.None? <==> forall k :: 0 <= k < |lines| ==> !IsTemperatureLine(lines[k])
  {
    if k :| 0 <= k < |lines| && IsWindLine(lines[k]) {
      LastWindLineExists(lines, k);
    }
    if k :| 0 <= k < |lines| && IsTemperatureLine(lines[k]) {
      LastTemperatureLineExists(lines, k);
    }
  }

  /** The lines the loop scans: every line after the first */
  function ScannedLines(text: string): seq<string> {
    Split(text, '\n')[1..]
  }

  /**
   * `parse_metar_data` of venv/weather_api.py. Text without a newline gives
   * None; any other text gives a record whose observation time is the text
   * before the first newline, verbatim.
   */
  function Parse(text: string): (r: Option<Reading>)
    ensures r.None? <==> '\n' !in text
    ensures r.Some? ==> '\n' !in r.value.observationTime && |r.value.observationTime| < |text|
    ensures r.Some? ==> text[..|r.value.observationTime| + 1] == r.value.observationTime + "\n"
  {
    var lines := Split(text, '\n');
    if |lines| < 2 then None
    else
      var st := Scan(ScanState(None, None), lines[1..]);
      SplitHead(text, '\n');
      Some(Reading(lines[0], st.temperature, st.wind))
  }

  /** The wind is the stripped last wind line after the first line, or None when there is none */
  lemma ParseWind(text: string)
    requires '\n' in text
    ensures Parse(text).value.wind.None? <==> forall k :: 0 <= k < |ScannedLines(text)| ==> !IsWindLine(ScannedLines(text)[k])
    ensures forall k :: LastWindLine(ScannedLines(text), k) ==> Parse(text).value.wind == Some(Strip(ScannedLines(text)[k]))
  {
    FreshScan(ScannedLines(text));
  }

  /** The temperature is the first token of the last temperature line after the first line, or None */
  lemma ParseTemperature(text: string)
    requires '\n' in text
    ensures Parse(text).value.temperature.None? <==> forall k :: 0 <= k < |ScannedLines(text)| ==> !IsTemperatureLine(ScannedLines(text)[k])
    ensures forall k :: LastTemperatureLine(ScannedLines(text), k) ==> Parse(text).value.temperature == FindTemperature(ScannedLines(text)[k])
  {
    FreshScan(ScannedLines(text));
  }

  /** A line mentioning `TEMP` leaves the scan as if it were not there */
  lemma {:induction false} TempLineSkipped(st: ScanState, xs: seq<string>, t: string, ys: seq<string>)
    requires Contains(t, "TEMP")
    ensures Scan(st, xs + [t] + ys) == Scan(st, xs + ys)
    decreases |xs|
  {
    if |xs| == 0 {
      assert xs + [t] + ys == [t] + ys;
      assert ([t] + ys)[1..] == ys;
      assert xs + ys == ys;
    } else {
      assert (xs + [t] + ys)[1..] == xs[1..] + [t] + ys;
      assert (xs + ys)[1..] == xs[1..] + ys;
      TempLineSkipped(Step(st, xs[0]), xs[1..], t, ys);
    }
  }

  /** The first line is only ever the observation time: wind and temperature come from the rest */
  lemma FirstLineIgnored(a: string, b: string, rest: string)
    requires '\n' !in a && '\n' !in b
    ensures Parse(a + "\n" + rest) == Some(Reading(a, Parse(b + "\n" + rest).value.temperature, Parse(b + "\n" + rest).value.wind))
  {
    SplitFirst(a, '\n', rest);
    SplitFirst(b, '\n', rest);
    assert a + "\n" + rest == a + ['\n'] + rest;
    assert b + "\n" + rest == b + ['\n'] + rest;
  }
}

=== FILE: request.dfy ===
/**
 * The parameter logic of the `/metar/info` handler, identical in both files:
 * `scode` must be present and non-empty, and `nocache` becomes the bypass
 * flag `bool(int(nocache))` when it is present and non-empty. `int()` on text
 * that is not a Python integer literal raises, and nothing catches it.
 */
module Request {
  import opened Wrappers
  import opened Text

  /** Digits, single underscores allowed between two digits: what `int()` accepts after the sign */
  predicate IsDecimal(b: string) {
    && |b| >= 1 && IsDigit(b[0]) && IsDigit(b[|b| - 1])
    && forall i :: 0 <= i < |b| ==> IsDigit(b[i]) || (b[i] == '_' && i + 1 < |b| && IsDigit(b[i + 1]))
  }

  /** The value of a digit string, underscores ignored */
  function DecimalValue(b: string): nat
    decreases |b|
  {
    if |b| == 0 then 0
    else if IsDigit(b[|b| - 1]) then 10 * DecimalValue(b[..|b| - 1]) + (b[|b| - 1] as int - '0' as int)
    else DecimalValue(b[..|b| - 1])
  }

  /**
   * The most digits `int()` converts from text: Python's default
   * `sys.get_int_max_str_digits()`. Longer literals raise `ValueError`.
   */
  const MaxStrDigits: nat := 4300

  /** How many decimal digits `s` holds; signs and underscores do not count */
  function DigitCount(s: string): nat
    decreases |s|
  {
    if |s| == 0 then 0
    else (if IsDigit(s[0]) then 1 else 0) + DigitCount(s[1..])
  }

  /**
   * Python's `int(s)` on text: surrounding whitespace of `int()`'s own set
   * (`IntBlanks`, narrower than what `str.strip()` removes), an optional sign, then
   * a decimal of at most `MaxStrDigits` digits; None where it raises. A value
   * is non-zero exactly when the text has a digit from 1 to 9.
   */
  function PyInt(s: string): (r: Option<int>)
    ensures r.Some? ==> 1 <= DigitCount(s) <= MaxStrDigits
    ensures r.Some? ==> (r.value != 0 <==> HasNonzeroDigit(s))
  {
    var t := StripBlanks(IntBlanks, s);
    StripKeepsDigits(s);
    if SignedDecimal(t).Some? then SignedFacts(t); SignedDecimal(t)
    else None
  }

  /** An optional sign and a decimal, the whole of `t`, within the digit limit */
  function SignedDecimal(t: string): Option<int> {
    if |t| > 0 && (t[0] == '+' || t[0] == '-') then
      var v: int := DecimalValue(t[1..]);
      if IsDecimal(t[1..]) && DigitCount(t[1..]) <= MaxStrDigits then Some(if t[0] == '-' then -v else v)
      else None
    else if IsDecimal(t) && DigitCount(t) <= MaxStrDigits then Some(DecimalValue(t))
    else None
  }

  /** The decimal digits of `n`, most significant first */
  function ShowNat(n: nat): (s: string)
    ensures |s| >= 1 && forall i :: 0 <= i < |s| ==> IsDigit(s[i])
  {
    var d := ['0' + (n % 10) as char];
    if n < 10 then d else ShowNat(n / 10) + d
  }

  /** Reading back the digits of a number gives the number */
  lemma {:induction false} DecimalValueOfShowNat(n: nat)
    ensures DecimalValue(ShowNat(n)) == n
    decreases n
  {
    var s := ShowNat(n);
    if n >= 10 {
      DecimalValueOfShowNat(n / 10);
      assert s[..|s| - 1] == ShowNat(n / 10);
    }
  }

  /** `int(str(n)) == n` for every natural number `n` of at most `MaxStrDigits` digits */
  lemma PyIntOfShowNat(n: nat)
    requires |ShowNat(n)| <= MaxStrDigits
    ensures PyInt(ShowNat(n)) == Some(n as int)
  {
    ShowNatIsDecimal(n);
    PyIntOfUnpadded(ShowNat(n));
    SignedDecimalOfShowNat(n);
  }

  /** `int(str(-m)) == -m` for every positive `m` of at most `MaxStrDigits` digits */
  lemma PyIntOfShowNegative(m: nat)
    requires m > 0 && |ShowNat(m)| <= MaxStrDigits
    ensures PyInt("-" + ShowNat(m)) == Some(-(m as int))
  {
    var digits := ShowNat(m);
    var s := "-" + digits;
    ShowNatIsDecimal(m);
    assert s[|s| - 1] == digits[|digits| - 1];
    PyIntOfUnpadded(s);
    SignedDecimalOfNegative(m);
  }

  lemma SignedDecimalOfShowNat(n: nat)
    requires |ShowNat(n)| <= MaxStrDigits
    ensures SignedDecimal(ShowNat(n)) == Some(n as int)
  {
    ShowNatIsDecimal(n);
    DigitCountOfDigits(ShowNat(n));
    DecimalValueOfShowNat(n);
  }

  lemma SignedDecimalOfNegative(m: nat)
    requires |ShowNat(m)| <= MaxStrDigits
    ensures SignedDecimal("-" + ShowNat(m)) == Some(-(m as int))
  {
    var s := "-" + ShowNat(m);
    ShowNatIsDecimal(m);
    DigitCountOfDigits(ShowNat(m));
    DecimalValueOfShowNat(m);
    assert s[1..] == ShowNat(m);
  }

  /** Text with no whitespace at either end goes to `int()` as it is */
  lemma PyIntOfUnpadded(t: string)
    requires |t| > 0 && !IsBlank(IntBlanks, t[0]) && !IsBlank(IntBlanks, t[|t| - 1])
    ensures PyInt(t) == SignedDecimal(t)
  {
    StripNoSpace(t);
  }

  lemma ShowNatIsDecimal(n: nat)
    ensures IsDecimal(ShowNat(n)) && !IsBlank(IntBlanks, ShowNat(n)[0]) && !IsBlank(IntBlanks, ShowNat(n)[|ShowNat(n)| - 1])
    ensures ShowNat(n)[0] != '+' && ShowNat(n)[0] != '-'
  {
  }

  /** A decimal is worth zero exactly when it has no digit other than `0` */
  lemma {:induction false} DecimalZeroIff(b: string)
    ensures DecimalValue(b) == 0 <==> forall i :: 0 <= i < |b| ==> !('1' <= b[i] <= '9')
    decreases |b|
  {
    if |b| > 0 {
      var front := b[..|b| - 1];
      DecimalZeroIff(front);
      assert forall i :: 0 <= i < |front| ==> front[i] == b[i];
    }
  }

  /** Text with no whitespace at either end strips to itself */
  lemma StripNoSpace(s: string)
    requires |s| > 0 && !IsBlank(IntBlanks, s[0]) && !IsBlank(IntBlanks, s[|s| - 1])
    ensures StripBlanks(IntBlanks, s) == s
  {
    assert StripLeft(IntBlanks, s) == s;
  }

  /** What the handler does with its two parameters before any lookup */
  datatype Decision = MissingStation | BadNocache | Proceed(station: string, bypass: bool)

  predicate HasNonzeroDigit(s: string) {
    exists i :: 0 <= i < |s| && '1' <= s[i] <= '9'
  }

  /**
   * An absent or empty `scode` is refused before anything else. An absent or
   * empty `nocache` means no bypass; otherwise it must be an integer, and the
   * cache is bypassed exactly when that integer is not zero.
   */
  function Decide(scode: Option<string>, nocache: Option<string>): (d: Decision)
    ensures d.MissingStation? <==> scode.None? || scode.value == ""
    ensures d.BadNocache? <==> scode.Some? && scode.value != "" && nocache.Some? && nocache.value != "" && PyInt(nocache.value).None?
    ensures d.Proceed? ==> d.station == scode.value
    ensures d.Proceed? ==> (d.bypass <==> nocache.Some? && HasNonzeroDigit(nocache.value))
  {
    if scode.None? || scode.value == "" then MissingStation
    else if nocache.None? || nocache.value == "" then Proceed(scode.value, false)
    else
      match PyInt(nocache.value)
      case None => BadNocache
      case Some(n) => Proceed(scode.value, n != 0)
  }

  /** Stripping whitespace removes no digit */
  lemma StripKeepsDigits(s: string)
    ensures DigitCount(StripBlanks(IntBlanks, s)) == DigitCount(s)
    ensures HasNonzeroDigit(StripBlanks(IntBlanks, s)) <==> HasNonzeroDigit(s)
  {
    var t := StripBlanks(IntBlanks, s);
    var i :| OccursAt(s, t, i) && AllBlank(IntBlanks, s[..i]) && AllBlank(IntBlanks, s[i + |t|..]);
    NonzeroOfPadded(s, i, t);
    DigitsOfPadded(s, i, t);
  }

  /** Whitespace around `t` adds no digits to the count */
  lemma DigitsOfPadded(s: string, i: int, t: string)
    requires OccursAt(s, t, i) && AllBlank(IntBlanks, s[..i]) && AllBlank(IntBlanks, s[i + |t|..])
    ensures DigitCount(s) == DigitCount(t)
  {
    assert s == s[..i] + t + s[i + |t|..];
    NoDigitInSpace(s[..i]);
    NoDigitInSpace(s[i + |t|..]);
    DigitCountConcat(s[..i] + t, s[i + |t|..]);
    DigitCountConcat(s[..i], t);
  }

  /** What `SignedDecimal` accepting `t` says about its digits */
  lemma SignedFacts(t: string)
    requires SignedDecimal(t).Some?
    ensures 1 <= DigitCount(t) <= MaxStrDigits
    ensures SignedDecimal(t).value != 0 <==> HasNonzeroDigit(t)
  {
    SignedNonzeroIff(t);
  }

  /** Every character of an all-digit string counts */
  lemma {:induction false} DigitCountOfDigits(s: string)
    requires forall i :: 0 <= i < |s| ==> IsDigit(s[i])
    ensures DigitCount(s) == |s|
    decreases |s|
  {
    if |s| > 0 {
      DigitCountOfDigits(s[1..]);
    }
  }

  lemma {:induction false} NoDigitInSpace(s: string)
    requires AllBlank(IntBlanks, s)
    ensures DigitCount(s) == 0
    decreases |s|
  {
    if |s| > 0 {
      NoDigitInSpace(s[1..]);
    }
  }

  lemma {:induction false} DigitCountConcat(a: string, b: string)
    ensures DigitCount(a + b) == DigitCount(a) + DigitCount(b)
    decreases |a|
  {
    if |a| > 0 {
      assert (a + b)[0] == a[0] && (a + b)[1..] == a[1..] + b;
      DigitCountConcat(a[1..], b);
    } else {
      assert a + b == b;
    }
  }

  /** Whitespace around `t` adds no digits */
  lemma NonzeroOfPadded(s: string, i: int, t: string)
    requires OccursAt(s, t, i) && AllBlank(IntBlanks, s[..i]) && AllBlank(IntBlanks, s[i + |t|..])
    ensures HasNonzeroDigit(s) <==> HasNonzeroDigit(t)
  {
    assert s == s[..i] + t + s[i + |t|..];
    NoNonzeroDigitInSpace(s[..i]);
    NoNonzeroDigitInSpace(s[i + |t|..]);
    NonzeroDigitConcat(s[..i] + t, s[i + |t|..]);
    NonzeroDigitConcat(s[..i], t);
  }

  /** A signed decimal is non-zero exactly when it has a digit other than `0` */
  lemma SignedNonzeroIff(t: string)
    requires SignedDecimal(t).Some?
    ensures SignedDecimal(t).value != 0 <==> HasNonzeroDigit(t)
  {
    if t[0] == '+' || t[0] == '-' {
      assert t == t[..1] + t[1..];
      NonzeroDigitConcat(t[..1], t[1..]);
      DecimalZeroIff(t[1..]);
    } else {
      DecimalZeroIff(t);
    }
  }

  lemma NoNonzeroDigitInSpace(s: string)
    requires AllBlank(IntBlanks, s)
    ensures !HasNonzeroDigit(s)
  {
  }

  lemma NonzeroDigitConcat(a: string, b: string)
    ensures HasNonzeroDigit(a + b) <==> HasNonzeroDigit(a) || HasNonzeroDigit(b)
  {
    if HasNonzeroDigit(a + b) {
      var k :| 0 <= k < |a + b| && '1' <= (a + b)[k] <= '9';
      if k >= |a| {
        assert b[k - |a|] == (a + b)[k];
      }
    }
    if HasNonzeroDigit(b) {
      var k :| 0 <= k < |b| && '1' <= b[k] <= '9';
      assert (a + b)[|a| + k] == b[k];
    }
    if HasNonzeroDigit(a) {
      var k :| 0 <= k < |a| && '1' <= a[k] <= '9';
      assert (a + b)[k] == a[k];
    }
  }

  /**
   * A `nocache` of more than `MaxStrDigits` digits makes `int()` raise, so the
   * request ends in the internal error even though the text is a number.
   */
  lemma OverlongNocacheRaises(station: string, nocache: string)
    requires station != "" && DigitCount(nocache) > MaxStrDigits
    ensures Decide(Some(station), Some(nocache)) == BadNocache
  {
  }

  /**
   * `int()` does not skip the ASCII separators U+001C to U+001F that
   * `str.strip()` removes, so a `nocache` that starts with one makes it raise.
   */
  lemma SeparatorNotSkipped(station: string, c: char, rest: string)
    requires station != "" && '\U{1C}' <= c <= '\U{1F}'
    ensures PyInt([c] + rest) == None
    ensures Decide(Some(station), Some([c] + rest)) == BadNocache
  {
    SeparatorNotInt([c] + rest);
  }

  /** A text that starts with one of U+001C to U+001F is not a number to `int()` */
  lemma SeparatorNotInt(s: string)
    requires |s| > 0 && '\U{1C}' <= s[0] <= '\U{1F}'
    ensures PyInt(s) == None
  {
    StripKeepsFirst(IntBlanks, s);
    var t := StripBlanks(IntBlanks, s);
    assert !IsDigit(t[0]) && t[0] != '+' && t[0] != '-';
    assert !IsDecimal(t);
  }

  /** Stripping leaves a text that starts with a non-blank as it starts */
  lemma StripKeepsFirst(b: Blanks, s: string)
    requires |s| > 0 && !IsBlank(b, s[0])
    ensures |StripBlanks(b, s)| > 0 && StripBlanks(b, s)[0] == s[0]
  {
    var r := StripBlanks(b, s);
    var i :| OccursAt(s, r, i) && AllBlank(b, s[..i]) && AllBlank(b, s[i + |r|..]);
    assert i == 0 && |r| > 0;
    assert r[0] == s[i..i + |r|][0];
  }

  /** `nocache=1` with a station code asks for a bypass */
  lemma BypassRequest(station: string)
    requires station != ""
    ensures Decide(Some(station), Some("1")) == Proceed(station, true)
  {
    assert HasNonzeroDigit("1") by {
      assert '1' <= "1"[0] <= '9';
    }
    assert PyInt("1") == Some(1) by {
      assert ShowNat(1) == "1";
      PyIntOfShowNat(1);
    }
  }
}

=== FILE: scan_service.dfy ===
/**
 * The service of venv/weather_api.py: the handler with the line-scanning
 * parser, and a payload carrying the station code, the observation time,
 * the temperature token and the wind line.
 */
module ScanService {
  import opened Wrappers
  import opened Upstream
  import opened CacheAside
  import opened InfoHandler
  import LineScanMetar

  /** The `data` object of a 200 response; an absent field is JSON `null` */
  datatype Payload = Payload(station: string, lastObservation: string, temperature: Option<string>, wind: Option<string>)

  /** The `data` object for a reading: the reading can be read back from it field by field */
  function Present(station: string, reading: LineScanMetar.Reading): (r: Payload)
    ensures r.station == station
    ensures LineScanMetar.Reading(r.lastObservation, r.temperature, r.wind) == reading
  {
    Payload(station, reading.observationTime, reading.temperature, reading.wind)
  }

  function Info(network: string -> Reply, cache: Cache<LineScanMetar.Reading>, now: int,
                scode: Option<string>, nocache: Option<string>): Handled<LineScanMetar.Reading, Payload> {
    GetWeather(LineScanMetar.Parse, Present, network, cache, now, scode, nocache)
  }

  /**
   * On a bypass request, an upstream body holding a line break is served with
   * 200 and the fields of its reading (`last_observation` is the first line),
   * and the reading is stored for 300 seconds.
   */
  lemma TextWithLineBreakServed(network: string -> Reply, cache: Cache<LineScanMetar.Reading>, now: int,
                                station: string, text: string)
    requires station != "" && '\n' in text
    requires network(MetarUrl(station)) == Response(200, text)
    ensures var r := LineScanMetar.Parse(text).value;
      Info(network, cache, now, Some(station), Some("1"))
      == Handled(HttpResponse(200, Data(Payload(station, r.observationTime, r.temperature, r.wind))),
                 cache[station := Entry(r, now + 300)])
  {
    Request.BypassRequest(station);
    FetchedAndStored(LineScanMetar.Parse, network, cache, now, station, text, LineScanMetar.Parse(text).value);
  }

  /** An upstream body with no line break is answered 404 on a cache miss, and nothing is stored */
  lemma TextWithoutLineBreakNotFound(network: string -> Reply, cache: Cache<LineScanMetar.Reading>, now: int,
                                     station: string, text: string)
    requires station != "" && Get(cache, station, now).None?
    requires network(MetarUrl(station)) == Response(200, text) && '\n' !in text
    ensures Info(network, cache, now, Some(station), None) == Handled(HttpResponse(404, Error(NotAvailableMessage)), cache)
  {
  }
}

=== FILE: strict_metar.dfy ===
/**
 * The strict METAR parser of weather_api.py. The regular expression there is
 *
 *   (ts) (station) (dir) (speed) (vis) (cover1)(alt1) (cover2)(alt2) (temp)/(dew) Q(pressure) (remarks)
 *
 * with fixed-width digit groups, a four-character `\w` station, and three
 * `[A-Z]+` groups. Each `[A-Z]+` group is followed by a digit or by the end of
 * the pattern, so the regex engine always takes the longest run of capitals
 * and never backtracks into it; a deterministic left-to-right token matcher
 * therefore accepts exactly what `re.match` accepts. `re.match` is anchored at
 * the start only, so whatever follows the remarks run is ignored.
 */
module StrictMetar {
  import opened Wrappers
  import opened Text

  datatype Wind = Wind(direction: string, speed: string)

  datatype Cloud = Cloud(cover: string, altitude: string)

  /** The record built from the thirteen capture groups */
  datatype Observation = Observation(
    timestamp: string,
    station: string,
    wind: Wind,
    visibility: string,
    clouds: seq<Cloud>,
    temperature: string,
    dewpoint: string,
    pressure: string,
    remarks: string)

  /** One position of a fixed-width group */
  datatype Class = Digit | Word | Lit(c: char)

  predicate Admits(k: Class, c: char) {
    match k
    case Digit => IsDigit(c)
    case Word => IsWordChar(c)
    case Lit(l) => c == l
  }

  /** `tok` fills a fixed-width group of the given shape */
  predicate HasShape(tok: string, shape: seq<Class>) {
    |tok| == |shape| && forall i :: 0 <= i < |tok| ==> Admits(shape[i], tok[i])
  }

  /** `\d{n}` */
  function Digits(n: nat): (shape: seq<Class>)
    ensures |shape| == n && forall i :: 0 <= i < n ==> shape[i] == Digit
  {
    seq(n, _ => Digit)
  }

  /** `\d{4}/\d{2}/\d{2} \d{2}:\d{2}` */
  function TimestampShape(): seq<Class> {
    Digits(4) + [Lit('/')] + Digits(2) + [Lit('/')] + Digits(2) + [Lit(' ')] + Digits(2) + [Lit(':')] + Digits(2)
  }

  /** `\w{4}` */
  function StationShape(): seq<Class> {
    [Word, Word, Word, Word]
  }

  /** `\d{6}Z` */
  function DirectionShape(): seq<Class> {
    Digits(6) + [Lit('Z')]
  }

  /** `\d{5}KT` */
  function SpeedShape(): seq<Class> {
    Digits(5) + [Lit('K'), Lit('T')]
  }

  /** `[A-Z]+` */
  predicate IsUpperRun(tok: string) {
    |tok| >= 1 && forall i :: 0 <= i < |tok| ==> IsUpper(tok[i])
  }

  predicate StartsUpper(s: string) {
    |s| > 0 && IsUpper(s[0])
  }

  /** The thirteen fields in capture-group order */
  function Groups(o: Observation): seq<string>
    requires |o.clouds| == 2
  {
    [o.timestamp, o.station, o.wind.direction, o.wind.speed, o.visibility,
     o.clouds[0].cover, o.clouds[0].altitude, o.clouds[1].cover, o.clouds[1].altitude,
     o.temperature, o.dewpoint, o.pressure, o.remarks]
  }

  /** Each token followed by its separator, concatenated */
  function Glue(toks: seq<string>, seps: seq<string>): string
    requires |toks| == |seps|
  {
    if |toks| == 0 then "" else toks[0] + seps[0] + Glue(toks[1..], seps[1..])
  }

  /** The text the pattern reads for `o`: the fields in group order with the pattern's literal separators */
  function Render(o: Observation): string
    requires |o.clouds| == 2
  {
    Glue(Groups(o), SepsOf(Pattern()))
  }

  /** One capture group of the pattern and the literal text that follows it */
  datatype Piece = FixedGroup(shape: seq<Class>, sep: string) | UpperGroup(sep: string)

  /** The pattern of weather_api.py line 16, group by group */
  function Pattern(): seq<Piece> {
    [ FixedGroup(TimestampShape(), " "), FixedGroup(StationShape(), " "),
      FixedGroup(DirectionShape(), " "), FixedGroup(SpeedShape(), " "), FixedGroup(Digits(4), " "),
      UpperGroup(""), FixedGroup(Digits(3), " "), UpperGroup(""), FixedGroup(Digits(3), " "),
      FixedGroup(Digits(2), "/"), FixedGroup(Digits(2), " Q"), FixedGroup(Digits(4), " "),
      UpperGroup("") ]
  }

  function SepsOf(ps: seq<Piece>): (seps: seq<string>)
    ensures |seps| == |ps| && forall i :: 0 <= i < |ps| ==> seps[i] == ps[i].sep
  {
    seq(|ps|, i requires 0 <= i < |ps| => ps[i].sep)
  }

  predicate Fits(tok: string, p: Piece) {
    match p
    case FixedGroup(shape, _) => HasShape(tok, shape)
    case UpperGroup(_) => IsUpperRun(tok)
  }

  predicate FitsAll(toks: seq<string>, ps: seq<Piece>) {
    |toks| == |ps| && forall i :: 0 <= i < |ps| ==> Fits(toks[i], ps[i])
  }

  /** Two clouds, and each of the thirteen fields fills its capture group */
  predicate WellShaped(o: Observation) {
    |o.clouds| == 2 && FitsAll(Groups(o), Pattern())
  }

  /** The shapes of the fields of a well-shaped record, field by field */
  lemma FieldShapes(o: Observation)
    requires |o.clouds| == 2
    ensures WellShaped(o) <==>
      && HasShape(o.timestamp, TimestampShape())
      && HasShape(o.station, StationShape())
      && HasShape(o.wind.direction, DirectionShape())
      && HasShape(o.wind.speed, SpeedShape())
      && HasShape(o.visibility, Digits(4))
      && IsUpperRun(o.clouds[0].cover) && HasShape(o.clouds[0].altitude, Digits(3))
      && IsUpperRun(o.clouds[1].cover) && HasShape(o.clouds[1].altitude, Digits(3))
      && HasShape(o.temperature, Digits(2))
      && HasShape(o.dewpoint, Digits(2))
      && HasShape(o.pressure, Digits(4))
      && IsUpperRun(o.remarks)
  {
    var g, ps := Groups(o), Pattern();
    assert Fits(g[0], ps[0]) == HasShape(o.timestamp, TimestampShape());
    assert Fits(g[1], ps[1]) == HasShape(o.station, StationShape());
    assert Fits(g[2], ps[2]) == HasShape(o.wind.direction, DirectionShape());
    assert Fits(g[3], ps[3]) == HasShape(o.wind.speed, SpeedShape());
    assert Fits(g[4], ps[4]) == HasShape(o.visibility, Digits(4));
    assert Fits(g[5], ps[5]) == IsUpperRun(o.clouds[0].cover);
    assert Fits(g[6], ps[6]) == HasShape(o.clouds[0].altitude, Digits(3));
    assert Fits(g[7], ps[7]) == IsUpperRun(o.clouds[1].cover);
    assert Fits(g[8], ps[8]) == HasShape(o.clouds[1].altitude, Digits(3));
    assert Fits(g[9], ps[9]) == HasShape(o.temperature, Digits(2));
    assert Fits(g[10], ps[10]) == HasShape(o.dewpoint, Digits(2));
    assert Fits(g[11], ps[11]) == HasShape(o.pressure, Digits(4));
    assert Fits(g[12], ps[12]) == IsUpperRun(o.remarks);
  }

  lemma PatternEndsWithRemarks()
    ensures |Pattern()| == 13 && Pattern()[12] == UpperGroup("")
  {
  }

  /** A matched group and the text after it and its separator */
  datatype Scan = Scan(token: string, rest: string)

  /** The length of the run of capitals at the front of `s` */
  function UpperPrefixLength(s: string): (n: nat)
    ensures n <= |s| && (forall i :: 0 <= i < n ==> IsUpper(s[i])) && !StartsUpper(s[n..])
  {
    if |s| > 0 && IsUpper(s[0]) then 1 + UpperPrefixLength(s[1..]) else 0
  }

  /**
   * One group and its separator at the front of `s`. A fixed group takes
   * exactly its width; an upper-case group takes the longest run of capitals,
   * which is the only way the rest of this pattern can match.
   */
  function Read(s: string, p: Piece): (r: Option<Scan>)
    ensures r.Some? ==> Fits(r.value.token, p) && s == r.value.token + p.sep + r.value.rest
    ensures r.Some? && p.UpperGroup? ==> !StartsUpper(p.sep + r.value.rest)
  {
    var n := match p
      case FixedGroup(shape, _) => |shape|
      case UpperGroup(_) => UpperPrefixLength(s);
    if n + |p.sep| <= |s| && Fits(s[..n], p) && s[n..n + |p.sep|] == p.sep then
      assert s == s[..n] + p.sep + s[n + |p.sep|..];
      assert p.UpperGroup? ==> p.sep + s[n + |p.sep|..] == s[n..];
      Some(Scan(s[..n], s[n + |p.sep|..]))
    else
      None
  }

  /** The groups `ps` read in order from the front of `s`, and the unread text */
  function MatchGroups(s: string, ps: seq<Piece>): (r: Option<(seq<string>, string)>)
    ensures r.Some? ==> FitsAll(r.value.0, ps) && s == Glue(r.value.0, SepsOf(ps)) + r.value.1
    ensures r.Some? && |ps| > 0 && ps[|ps| - 1] == UpperGroup("") ==> !StartsUpper(r.value.1)
    decreases |ps|
  {
    if |ps| == 0 then Some(([], s))
    else
      match Read(s, ps[0])
      case None => None
      case Some(g) =>
        match MatchGroups(g.rest, ps[1..])
        case None => None
        case Some((toks, rest)) =>
          GlueCons(s, g, ps, toks, rest);
          Some(([g.token] + toks, rest))
  }

  lemma GlueCons(s: string, g: Scan, ps: seq<Piece>, toks: seq<string>, rest: string)
    requires |ps| > 0 && Fits(g.token, ps[0]) && s == g.token + ps[0].sep + g.rest
    requires ps[0].UpperGroup? ==> !StartsUpper(ps[0].sep + g.rest)
    requires FitsAll(toks, ps[1..]) && g.rest == Glue(toks, SepsOf(ps[1..])) + rest
    requires |ps| > 1 && ps[|ps| - 1] == UpperGroup("") ==> !StartsUpper(rest)
    ensures FitsAll([g.token] + toks, ps) && s == Glue([g.token] + toks, SepsOf(ps)) + rest
    ensures ps[|ps| - 1] == UpperGroup("") ==> !StartsUpper(rest)
  {
    var all := [g.token] + toks;
    var seps := SepsOf(ps);
    assert all[1..] == toks;
    assert seps[1..] == SepsOf(ps[1..]);
    assert Glue(all, seps) + rest == g.token + ps[0].sep + (Glue(toks, seps[1..]) + rest);
    forall i | 0 <= i < |ps|
      ensures Fits(all[i], ps[i])
    {
      if i > 0 {
        assert all[i] == toks[i - 1] && ps[1..][i - 1] == ps[i];
      }
    }
    if |ps| == 1 {
      assert rest == g.rest;
    } else {
      assert ps[1..][|ps| - 2] == ps[|ps| - 1];
    }
  }

  /** The record assembled from the thirteen captured groups, as parse_metar_data does */
  function Build(g: seq<string>): (o: Observation)
    requires |g| == 13
    ensures |o.clouds| == 2 && Groups(o) == g
  {
    Observation(g[0], g[1], Wind(g[2], g[3]), g[4], [Cloud(g[5], g[6]), Cloud(g[7], g[8])],
                g[9], g[10], g[11], g[12])
  }

  /**
   * `re.match` of the pattern: the record and the unread text after the
   * remarks run. On success the text is exactly the rendered record followed
   * by something that does not continue the remarks run.
   */
  function Match(s: string): (r: Option<(Observation, string)>)
    ensures r.Some? ==> WellShaped(r.value.0) && s == Render(r.value.0) + r.value.1 && !StartsUpper(r.value.1)
  {
    var m :- MatchGroups(s, Pattern());
    PatternEndsWithRemarks();
    Some((Build(m.0), m.1))
  }

  /** `parse_metar_data`: the record when the text starts with the pattern, otherwise None */
  function Parse(text: string): (r: Option<Observation>)
    ensures r.Some? ==> WellShaped(r.value)
  {
    match Match(text)
    case Some((o, _)) => Some(o)
    case None => None
  }

  /** The longest run of capitals at the front of a run of capitals followed by a non-capital */
  lemma {:induction false} UpperPrefixOfRun(tok: string, after: string)
    requires forall i :: 0 <= i < |tok| ==> IsUpper(tok[i])
    requires !StartsUpper(after)
    ensures UpperPrefixLength(tok + after) == |tok|
    decreases |tok|
  {
    if |tok| > 0 {
      assert (tok + after)[1..] == tok[1..] + after;
      UpperPrefixOfRun(tok[1..], after);
    } else {
      assert tok + after == after;
    }
  }

  /** Reading one group back from its token, its separator and any rest that does not extend a capital run */
  lemma ReadOf(tok: string, p: Piece, rest: string)
    requires Fits(tok, p)
    requires p.UpperGroup? ==> !StartsUpper(p.sep + rest)
    ensures Read(tok + p.sep + rest, p) == Some(Scan(tok, rest))
  {
    var s := tok + p.sep + rest;
    if p.UpperGroup? {
      assert s == tok + (p.sep + rest);
      UpperPrefixOfRun(tok, p.sep + rest);
    }
    assert s[..|tok|] == tok;
    assert s[|tok|..|tok| + |p.sep|] == p.sep;
    assert s[|tok| + |p.sep|..] == rest;
  }

  /** No upper-case group of `ps` is followed, in the glued text, by a capital it would swallow */
  predicate Unswallowed(toks: seq<string>, ps: seq<Piece>, t: string)
    requires |toks| == |ps|
  {
    forall i :: 0 <= i < |ps| && ps[i].UpperGroup? ==>
      !StartsUpper(ps[i].sep + Glue(toks[i + 1..], SepsOf(ps)[i + 1..]) + t)
  }

  /** Reading the groups back from glued tokens that fill them gives the tokens and the tail */
  lemma {:induction false} MatchGroupsOfGlue(toks: seq<string>, ps: seq<Piece>, t: string)
    requires FitsAll(toks, ps) && Unswallowed(toks, ps, t)
    ensures MatchGroups(Glue(toks, SepsOf(ps)) + t, ps) == Some((toks, t))
    decreases |ps|
  {
    if |ps| > 0 {
      FirstGroupOfGlue(toks, ps, t);
      UnswallowedTail(toks, ps, t);
      MatchGroupsOfGlue(toks[1..], ps[1..], t);
      assert [toks[0]] + toks[1..] == toks;
    } else {
      assert toks == [];
      assert Glue(toks, SepsOf(ps)) + t == t;
    }
  }

  /** The first group reads back from glued tokens, leaving the glue of the others */
  lemma FirstGroupOfGlue(toks: seq<string>, ps: seq<Piece>, t: string)
    requires |ps| > 0 && FitsAll(toks, ps) && Unswallowed(toks, ps, t)
    ensures Read(Glue(toks, SepsOf(ps)) + t, ps[0]) == Some(Scan(toks[0], Glue(toks[1..], SepsOf(ps[1..])) + t))
  {
    var seps := SepsOf(ps);
    var tail := Glue(toks[1..], seps[1..]) + t;
    assert seps[1..] == SepsOf(ps[1..]);
    GlueFront(toks, seps, t);
    assert Fits(toks[0], ps[0]);
    assert ps[0].UpperGroup? ==> !StartsUpper(ps[0].sep + tail) by {
      assert toks[1..] == toks[0 + 1..];
    }
    ReadOf(toks[0], ps[0], tail);
  }

  /** The glued text opens with the first token and its separator */
  lemma GlueFront(toks: seq<string>, seps: seq<string>, t: string)
    requires |toks| == |seps| > 0
    ensures Glue(toks, seps) + t == toks[0] + seps[0] + (Glue(toks[1..], seps[1..]) + t)
  {
  }

  /** What holds of all groups holds of all but the first */
  lemma UnswallowedTail(toks: seq<string>, ps: seq<Piece>, t: string)
    requires |ps| > 0 && FitsAll(toks, ps) && Unswallowed(toks, ps, t)
    ensures FitsAll(toks[1..], ps[1..]) && Unswallowed(toks[1..], ps[1..], t)
  {
    var seps := SepsOf(ps);
    forall i | 0 <= i < |ps| - 1 && ps[1..][i].UpperGroup?
      ensures !StartsUpper(ps[1..][i].sep + Glue(toks[1..][i + 1..], SepsOf(ps[1..])[i + 1..]) + t)
    {
      assert toks[1..][i + 1..] == toks[i + 2..];
      assert SepsOf(ps[1..])[i + 1..] == seps[i + 2..];
      assert ps[1..][i] == ps[i + 1];
    }
  }

  /** The glued text starts with the first character of the first token */
  lemma GlueHead(toks: seq<string>, seps: seq<string>, t: string)
    requires |toks| == |seps| && |toks| > 0 && |toks[0]| > 0
    ensures StartsUpper(Glue(toks, seps) + t) <==> IsUpper(toks[0][0])
  {
  }

  /** In a well-shaped record the cloud covers are followed by altitude digits */
  lemma RenderedUnswallowed(o: Observation, t: string)
    requires WellShaped(o) && !StartsUpper(t)
    ensures Unswallowed(Groups(o), Pattern(), t)
  {
    var g, ps := Groups(o), Pattern();
    var seps := SepsOf(ps);
    PatternEndsWithRemarks();
    forall i | 0 <= i < |ps| && ps[i].UpperGroup?
      ensures !StartsUpper(ps[i].sep + Glue(g[i + 1..], seps[i + 1..]) + t)
    {
      if i == 12 {
        assert g[13..] == [];
        assert ps[i].sep + Glue(g[i + 1..], seps[i + 1..]) + t == t;
      } else {
        assert i == 5 || i == 7;
        assert Fits(g[i + 1], ps[i + 1]);
        assert IsDigit(g[i + 1][0]);
        GlueHead(g[i + 1..], seps[i + 1..], t);
        assert ps[i].sep + Glue(g[i + 1..], seps[i + 1..]) + t == Glue(g[i + 1..], seps[i + 1..]) + t;
      }
    }
  }

  /**
   * Round trip: rendering a well-shaped record and following it with any text
   * that does not continue the remarks run parses back to the same record, and
   * the following text is left unread.
   */
  lemma RoundTrip(o: Observation, t: string)
    requires WellShaped(o) && !StartsUpper(t)
    ensures Match(Render(o) + t) == Some((o, t))
    ensures Parse(Render(o) + t) == Some(o)
  {
    RenderedUnswallowed(o, t);
    MatchGroupsOfGlue(Groups(o), Pattern(), t);
    BuildOfGroups(o);
  }

  /** Assembling a record from its own groups gives the record back */
  lemma BuildOfGroups(o: Observation)
    requires |o.clouds| == 2
    ensures Build(Groups(o)) == o
  {
    assert o.clouds == [o.clouds[0], o.clouds[1]];
  }

  /** Extending the last token, whose separator is empty, extends the glued text */
  lemma {:induction false} GlueExtendLast(toks: seq<string>, seps: seq<string>, u: string)
    requires |toks| == |seps| > 0 && seps[|seps| - 1] == ""
    ensures Glue(toks[|toks| - 1 := toks[|toks| - 1] + u], seps) == Glue(toks, seps) + u
    decreases |toks|
  {
    var n := |toks|;
    var ext := toks[n - 1 := toks[n - 1] + u];
    if n == 1 {
      assert Glue(ext, seps) == ext[0] + seps[0] + Glue([], []);
    } else {
      assert ext[1..] == toks[1..][n - 2 := toks[1..][n - 2] + u];
      GlueExtendLast(toks[1..], seps[1..], u);
    }
  }

  /**
   * Text that starts with a rendered well-shaped record always matches; a run
   * of capitals right after it is read as more of the remarks.
   */
  lemma RenderedPrefixMatches(o: Observation, t: string)
    requires WellShaped(o)
    ensures Parse(Render(o) + t) == Some(o.(remarks := o.remarks + t[..UpperPrefixLength(t)]))
  {
    var k := UpperPrefixLength(t);
    var o' := o.(remarks := o.remarks + t[..k]);
    SplitAtUpperPrefix(o, t, k);
    RoundTrip(o', t[k..]);
  }

  /** Moving the run of capitals at the head of `t` into the remarks leaves the text as it was */
  lemma SplitAtUpperPrefix(o: Observation, t: string, k: nat)
    requires WellShaped(o) && k == UpperPrefixLength(t)
    ensures WellShaped(o.(remarks := o.remarks + t[..k])) && !StartsUpper(t[k..])
    ensures Render(o.(remarks := o.remarks + t[..k])) + t[k..] == Render(o) + t
  {
    var u, v := t[..k], t[k..];
    UpperPrefixParts(t, k);
    ExtendRemarks(o, u);
    ShiftJoint(Render(o), u, v, Render(o.(remarks := o.remarks + u)), t);
  }

  lemma UpperPrefixParts(t: string, k: nat)
    requires k == UpperPrefixLength(t)
    ensures k <= |t| && t[..k] + t[k..] == t && !StartsUpper(t[k..])
    ensures forall i :: 0 <= i < |t[..k]| ==> IsUpper(t[..k][i])
  {
    assert forall i :: 0 <= i < k ==> t[..k][i] == t[i];
  }

  /** Moving `u` from the front of the tail to the end of the head keeps the whole */
  lemma ShiftJoint(r: string, u: string, v: string, r': string, t: string)
    requires r' == r + u && t == u + v
    ensures r' + v == r + t
  {
    assert r + u + v == r + (u + v);
  }

  /** Appending capitals to the remarks keeps the record well shaped and appends them to the text */
  lemma ExtendRemarks(o: Observation, u: string)
    requires WellShaped(o) && forall i :: 0 <= i < |u| ==> IsUpper(u[i])
    ensures WellShaped(o.(remarks := o.remarks + u))
    ensures Render(o.(remarks := o.remarks + u)) == Render(o) + u
  {
    var o' := o.(remarks := o.remarks + u);
    var g, ps := Groups(o), Pattern();
    assert Groups(o') == g[12 := g[12] + u];
    assert Fits(g[12], ps[12]);
    forall i | 0 <= i < 13
      ensures Fits(Groups(o')[i], ps[i])
    {
      if i < 12 {
        assert Groups(o')[i] == g[i];
      }
    }
    PatternEndsWithRemarks();
    GlueExtendLast(g, SepsOf(ps), u);
  }

  /** The parse returns a record exactly when the text starts with a rendered well-shaped record */
  lemma ParseSomeIff(s: string)
    ensures Parse(s).Some? <==> exists o, t :: WellShaped(o) && s == Render(o) + t
  {
    if Parse(s).Some? {
      var o := Match(s).value.0;
      var t := Match(s).value.1;
      assert WellShaped(o) && s == Render(o) + t;
    }
    if exists o, t :: WellShaped(o) && s == Render(o) + t {
      var o, t :| WellShaped(o) && s == Render(o) + t;
      RenderedPrefixMatches(o, t);
    }
  }

  /** What follows the remarks run does not matter, as long as it does not extend the run */
  lemma TrailingTextIgnored(s: string, u: string)
    requires Match(s).Some? && !StartsUpper(u)
    ensures Parse(s[..|s| - |Match(s).value.1|] + u) == Parse(s)
  {
    var (o, rest) := Match(s).value;
    assert s[..|s| - |rest|] == Render(o);
    RoundTrip(o, u);
  }

  /** The first three groups sit at fixed offsets: characters 0-15, 17-20 and 22-28 */
  lemma LeadingGroupsAt(s: string)
    requires Match(s).Some?
    ensures |s| >= 29
    ensures s[..16] == Match(s).value.0.timestamp
    ensures s[17..21] == Match(s).value.0.station
    ensures s[22..29] == Match(s).value.0.wind.direction
  {
    var (o, t) := Match(s).value;
    var g, ps := Groups(o), Pattern();
    assert Fits(g[0], ps[0]) && Fits(g[1], ps[1]) && Fits(g[2], ps[2]);
    LeadingOffsets(g, SepsOf(ps), t);
  }

  lemma LeadingOffsets(g: seq<string>, seps: seq<string>, t: string)
    requires |g| == |seps| >= 3 && |g[0]| == 16 && |g[1]| == 4 && |g[2]| == 7
    requires seps[0] == " " && seps[1] == " "
    ensures |Glue(g, seps) + t| >= 29
    ensures (Glue(g, seps) + t)[..16] == g[0]
    ensures (Glue(g, seps) + t)[17..21] == g[1]
    ensures (Glue(g, seps) + t)[22..29] == g[2]
  {
    var z := seps[2] + Glue(g[3..], seps[3..]) + t;
    assert g[1..][1..] == g[2..] && seps[1..][1..] == seps[2..];
    assert g[2..][1..] == g[3..] && seps[2..][1..] == seps[3..];
    var p2 := Glue(g[2..], seps[2..]) + t;
    assert p2 == g[2] + z;
    var p1 := Glue(g[1..], seps[1..]) + t;
    assert p1 == g[1] + " " + p2;
    var w := Glue(g, seps) + t;
    assert w == g[0] + " " + p1;
    SliceOf("", g[0], " " + p1);
    SliceOf(g[0] + " ", g[1], " " + p2);
    SliceOf(g[0] + " " + g[1] + " ", g[2], z);
  }

  /** The middle of three pieces sits at the first piece's length */
  lemma SliceOf(x: string, y: string, z: string)
    ensures (x + y + z)[|x|..|x| + |y|] == y
  {
    assert forall i :: 0 <= i < |y| ==> (x + y + z)[|x| + i] == y[i];
  }

  /** The third group needs a digit at offset 27, just before its `Z` */
  lemma DirectionNeedsSixDigits(s: string)
    requires |s| >= 29 && !IsDigit(s[27])
    ensures Parse(s) == None
  {
    if Match(s).Some? {
      DirectionDigit(s);
      assert false;
    }
  }

  /** Whatever the pattern accepts has a digit at offset 27, the last of the third group's six */
  lemma DirectionDigit(s: string)
    requires Match(s).Some?
    ensures |s| >= 29 && IsDigit(s[27])
  {
    var o := Match(s).value.0;
    LeadingGroupsAt(s);
    FieldShapes(o);
    var d := o.wind.direction;
    assert HasShape(d, DirectionShape());
    assert s[27] == d[5];
    assert DirectionShape()[5] == Digit;
  }

  /**
   * A report whose third group is the five-digit `31012Z` is rejected: the
   * pattern wants six digits before the `Z`.
   */
  lemma FiveDigitGroupRejected(s: string)
    requires s == "2024/05/01 12:00 KJFK " + "31012Z" + " 12008KT 9999 FEW015 BKN030 18/10 Q1015 NOSIG"
    ensures Parse(s) == None
  {
    assert s[27] == "31012Z"[5];
    DirectionNeedsSixDigits(s);
  }

  /** A well-shaped record renders to text at least as long as its timestamp */
  lemma RenderNotEmpty(o: Observation)
    requires WellShaped(o)
    ensures |Render(o)| >= 16
  {
    FieldShapes(o);
    var g := Groups(o);
    assert g[0] == o.timestamp;
    assert Render(o) == g[0] + SepsOf(Pattern())[0] + Glue(g[1..], SepsOf(Pattern())[1..]);
  }
}

=== FILE: strict_service.dfy ===
/**
 * The service of weather_api.py: the handler with the strict parser, and a
 * payload carrying the station code, the record's timestamp and the whole
 * record.
 */
module StrictService {
  import opened Wrappers
  import opened Upstream
  import opened CacheAside
  import opened Request
  import opened InfoHandler
  import StrictMetar

  /** The `data` object of a 200 response */
  datatype Payload = Payload(station: string, lastObservation: string, weatherData: StrictMetar.Observation)

  /**
   * The `data` object for a record: `last_observation` agrees with the
   * record's own timestamp, and the record is carried whole.
   */
  function Present(station: string, o: StrictMetar.Observation): (r: Payload)
    ensures r.station == station && r.weatherData == o
    ensures r.lastObservation == r.weatherData.timestamp
  {
    Payload(station, o.timestamp, o)
  }

  function Info(network: string -> Reply, cache: Cache<StrictMetar.Observation>, now: int,
                scode: Option<string>, nocache: Option<string>): Handled<StrictMetar.Observation, Payload> {
    GetWeather(StrictMetar.Parse, Present, network, cache, now, scode, nocache)
  }

  /**
   * A bypass request whose upstream answers 200 with a well-formed report is
   * served the decoded record, which is also written to the store for 300
   * seconds.
   */
  lemma WellFormedReportServed(network: string -> Reply, cache: Cache<StrictMetar.Observation>, now: int,
                               station: string, o: StrictMetar.Observation, rest: string)
    requires station != "" && StrictMetar.WellShaped(o) && !StrictMetar.StartsUpper(rest)
    requires network(MetarUrl(station)) == Response(200, StrictMetar.Render(o) + rest)
    ensures Info(network, cache, now, Some(station), Some("1")).response
            == HttpResponse(200, Data(Payload(station, o.timestamp, o)))
    ensures Info(network, cache, now, Some(station), Some("1")).cache == cache[station := Entry(o, now + 300)]
  {
    var text := StrictMetar.Render(o) + rest;
    StrictMetar.RoundTrip(o, rest);
    StrictMetar.RenderNotEmpty(o);
    BypassRequest(station);
    FetchedAndStored(StrictMetar.Parse, network, cache, now, station, text, o);
  }

  /** A report the pattern rejects is answered 404 on a cache miss, and nothing is stored */
  lemma RejectedReportNotFound(network: string -> Reply, cache: Cache<StrictMetar.Observation>, now: int,
                               station: string, text: string)
    requires station != "" && Get(cache, station, now).None?
    requires network(MetarUrl(station)) == Response(200, text) && StrictMetar.Parse(text).None?
    ensures Info(network, cache, now, Some(station), None) == Handled(HttpResponse(404, Error(NotAvailableMessage)), cache)
  {
  }
}

=== FILE: temperature_pattern.dfy ===
/**
 * `re.search(r'(M?\d+/\d+|M?\d+M?\d+)', line)` of venv/weather_api.py, worked
 * out by hand. At each start position the regex engine tries the first
 * alternative (with all its backtracking) before the second, and the search
 * returns the match at the leftmost start position that has one.
 *
 * Backtracking settles as follows. An `M?` at a position holding `M` can only
 * succeed by taking the `M`, because `\d+` cannot start on an `M`. The first
 * `\d+` of `M?\d+/\d+` must take the whole digit run, since only `/` may
 * follow it. In `M?\d+M?\d+` the greedy first run is followed either by `M`
 * and more digits (taken whole), or else the engine gives back the last digit
 * of the run to the final `\d+`, which needs a run of at least two digits.
 */
module TemperaturePattern {
  import opened Wrappers
  import opened Text

  /** The length of the digit run of `s` starting at `i` */
  function DigitRun(s: string, i: nat): (n: nat)
    requires i <= |s|
    ensures i + n <= |s|
    ensures i + n == |s| || !IsDigit(s[i + n])
    decreases |s| - i
  {
    if i < |s| && IsDigit(s[i]) then 1 + DigitRun(s, i + 1) else 0
  }

  /** Where the body of an alternative starts after the optional `M` at `i` */
  function AfterOptionalM(s: string, i: nat): (j: nat)
    requires i <= |s|
    ensures i <= j <= |s| && j <= i + 1
  {
    if i < |s| && s[i] == 'M' then i + 1 else i
  }

  /** The end of a match of `M?\d+/\d+` starting at `i`, if any */
  function SlashFormAt(s: string, i: nat): (e: Option<nat>)
    requires i <= |s|
    ensures e.Some? ==> i < e.value <= |s| && IsTemperatureToken(s[i..e.value])
    ensures e.Some? ==> e.value == |s| || !IsDigit(s[e.value])
    ensures e.Some? ==> NoLongerToken(s, i, e.value)
    ensures e.None? ==> !SlashAfterRun(s, AfterOptionalM(s, i))
  {
    var j := AfterOptionalM(s, i);
    if SlashAfterRun(s, j) then
      var e := SecondRunEnd(s, j);
      SeparatedMatch(s, i, e);
      Some(e)
    else
      None
  }

  /** The end of a match of `M?\d+M?\d+` starting at `i`, if any */
  function PairFormAt(s: string, i: nat): (e: Option<nat>)
    requires i <= |s|
    ensures e.Some? ==> i < e.value <= |s| && IsTemperatureToken(s[i..e.value])
    ensures e.Some? ==> e.value == |s| || !IsDigit(s[e.value])
    ensures e.Some? && !SlashAfterRun(s, AfterOptionalM(s, i)) ==> NoLongerToken(s, i, e.value)
  {
    var j := AfterOptionalM(s, i);
    if MAfterRun(s, j) then
      var e := SecondRunEnd(s, j);
      SeparatedMatch(s, i, e);
      Some(e)
    else if DigitRun(s, j) >= 2 then
      var e := j + DigitRun(s, j);
      RunMatch(s, i, e);
      Some(e)
    else
      None
  }

  predicate AllDigits(w: string) {
    forall k :: 0 <= k < |w| ==> IsDigit(w[k])
  }

  /** Digits, a `/` and digits from `j`: the shape `M?\d+/\d+` needs after its `M` */
  predicate SlashAfterRun(s: string, j: nat)
    requires j <= |s|
  {
    SeparatedFrom(s, j) && s[j + DigitRun(s, j)] == '/'
  }

  /** Digits, an `M` and digits from `j`: the separated shape of `M?\d+M?\d+` after its `M` */
  predicate MAfterRun(s: string, j: nat)
    requires j <= |s|
  {
    SeparatedFrom(s, j) && s[j + DigitRun(s, j)] == 'M'
  }

  /**
   * The text the pattern describes, read off the regex: an optional `M`, then
   * either a run of at least two digits, or digits, a `/` or an `M`, and
   * digits again.
   */
  predicate IsTemperatureToken(w: string) {
    var body := if |w| > 0 && w[0] == 'M' then w[1..] else w;
    || (|body| >= 2 && AllDigits(body))
    || exists q :: 0 <= q < |body| && SeparatedAt(body, q)
  }

  /** `body` is digits, then a `/` or `M` at `q`, then digits */
  predicate SeparatedAt(body: string, q: int) {
    && 1 <= q < |body| - 1
    && (body[q] == '/' || body[q] == 'M')
    && AllDigits(body[..q]) && AllDigits(body[q + 1..])
  }

  /**
   * The end of the match the regex engine finds at start position `i`, if
   * any. The matched text is a token of the pattern, and it is not followed
   * by a digit: every digit run in it is taken whole. Of the tokens that
   * start at `i` it is the longest, since the separated shapes are tried
   * before the bare run. There is no match only when no token of the pattern
   * starts at `i`.
   */
  function MatchAt(s: string, i: nat): (e: Option<nat>)
    requires i <= |s|
    ensures e.Some? ==> i < e.value <= |s|
    ensures e.Some? ==> IsTemperatureToken(s[i..e.value])
    ensures e.Some? ==> e.value == |s| || !IsDigit(s[e.value])
    ensures e.Some? ==> NoLongerToken(s, i, e.value)
    ensures e.None? ==> NoTokenAt(s, i)
  {
    match SlashFormAt(s, i)
    case Some(e) => Some(e)
    case None =>
      match PairFormAt(s, i)
      case Some(e) => Some(e)
      case None =>
        NoAlternativeNoToken(s, i);
        None
  }

  /** No token of the pattern starts at `i` */
  predicate NoTokenAt(s: string, i: nat) {
    forall e :: i < e <= |s| ==> !IsTemperatureToken(s[i..e])
  }

  /** No token of the pattern starts anywhere from `lo` up to, not including, `hi` */
  predicate NoTokenBetween(s: string, lo: nat, hi: nat) {
    forall p: nat :: lo <= p < hi ==> NoTokenAt(s, p)
  }

  /** No token starting at `i` ends later than `e` */
  predicate NoLongerToken(s: string, i: nat, e: nat) {
    forall e' :: i <= e < e' <= |s| ==> !IsTemperatureToken(s[i..e'])
  }

  /**
   * The match of either separated form is the longest token at `i`: every
   * token ends within the second digit run.
   */
  lemma SeparatedLongest(s: string, i: nat, e: nat)
    requires i <= |s| && SeparatedFrom(s, AfterOptionalM(s, i))
    requires e == SecondRunEnd(s, AfterOptionalM(s, i))
    ensures NoLongerToken(s, i, e)
  {
    forall e' | i <= e < e' <= |s| && IsTemperatureToken(s[i..e'])
      ensures false
    {
      TokenEndBound(s, i, e');
    }
  }

  /**
   * Without a separated shape at `i`, the whole digit run after the optional
   * `M` is the longest token there.
   */
  lemma RunLongest(s: string, i: nat, e: nat)
    requires i <= |s|
    requires e == AfterOptionalM(s, i) + DigitRun(s, AfterOptionalM(s, i))
    requires e >= AfterOptionalM(s, i) + 1
    requires !SlashAfterRun(s, AfterOptionalM(s, i)) && !MAfterRun(s, AfterOptionalM(s, i))
    ensures NoLongerToken(s, i, e)
  {
    assert !SeparatedFrom(s, AfterOptionalM(s, i));
    forall e' | i <= e < e' <= |s| && IsTemperatureToken(s[i..e'])
      ensures false
    {
      TokenEndBound(s, i, e');
    }
  }

  /**
   * A token at `i` ends within the digit run after the optional `M`, or else
   * that run is followed by a `/` or `M` and the token ends within the
   * digit run after it.
   */
  lemma TokenEndBound(s: string, i: nat, e: nat)
    requires i < e <= |s| && IsTemperatureToken(s[i..e])
    ensures var j := AfterOptionalM(s, i);
      e <= j + DigitRun(s, j) || (SeparatedFrom(s, j) && e <= SecondRunEnd(s, j))
  {
    TokenBody(s, i, e);
    BodyEndBound(s, AfterOptionalM(s, i), e);
  }

  /** The end bound of `TokenEndBound`, for the text after the optional `M` */
  lemma BodyEndBound(s: string, j: nat, e: nat)
    requires j <= e <= |s|
    requires (|s[j..e]| >= 2 && AllDigits(s[j..e])) || exists q :: 0 <= q < |s[j..e]| && SeparatedAt(s[j..e], q)
    ensures e <= j + DigitRun(s, j) || (SeparatedFrom(s, j) && e <= SecondRunEnd(s, j))
  {
    if |s[j..e]| >= 2 && AllDigits(s[j..e]) {
      RunEndBound(s, j, e);
    } else {
      var q :| 0 <= q < |s[j..e]| && SeparatedAt(s[j..e], q);
      SeparatedEndBound(s, j, e, q);
    }
  }

  /** Where the digit run after the separator of a separated shape from `j` ends */
  function SecondRunEnd(s: string, j: nat): (e: nat)
    requires j <= |s| && SeparatedFrom(s, j)
    ensures j + DigitRun(s, j) + 1 < e <= |s|
    ensures e == |s| || !IsDigit(s[e])
  {
    var a := DigitRun(s, j);
    j + a + 1 + DigitRun(s, j + a + 1)
  }

  /** A separated token body from `j` ends within the digit run after its separator */
  lemma SeparatedEndBound(s: string, j: nat, e: nat, q: nat)
    requires j <= e <= |s| && SeparatedAt(s[j..e], q)
    ensures SeparatedFrom(s, j) && e <= SecondRunEnd(s, j)
  {
    SeparatedShape(s, j, e, q);
    assert s[j..e][q + 1..] == s[j + q + 1..e];
    RunEndBound(s, j + q + 1, e);
  }

  /** Digits from `j` to `e` lie within the digit run at `j` */
  lemma RunEndBound(s: string, j: nat, e: nat)
    requires j <= e <= |s| && AllDigits(s[j..e])
    ensures e <= j + DigitRun(s, j)
  {
    var body := s[j..e];
    assert forall k :: j <= k < e ==> s[k] == body[k - j];
    DigitRunAtLeast(s, j, e - j);
  }

  /** When neither alternative matches at `i`, no token starts there */
  lemma NoAlternativeNoToken(s: string, i: nat)
    requires i <= |s| && SlashFormAt(s, i).None? && PairFormAt(s, i).None?
    ensures NoTokenAt(s, i)
  {
    forall e | i < e <= |s| && IsTemperatureToken(s[i..e])
      ensures false
    {
      TokenStartsAlternative(s, i, e);
    }
  }

  /** A token starting at `i` makes one of the two alternatives match there */
  lemma TokenStartsAlternative(s: string, i: nat, e: nat)
    requires i < e <= |s| && IsTemperatureToken(s[i..e])
    ensures SlashFormAt(s, i).Some? || PairFormAt(s, i).Some?
  {
    TokenBody(s, i, e);
    TokenShape(s, AfterOptionalM(s, i), e);
    ShapeMatches(s, i);
  }

  /** Either shape after the optional `M` makes one of the two alternatives match */
  lemma ShapeMatches(s: string, i: nat)
    requires i <= |s|
    requires SeparatedFrom(s, AfterOptionalM(s, i)) || DigitRun(s, AfterOptionalM(s, i)) >= 2
    ensures SlashFormAt(s, i).Some? || PairFormAt(s, i).Some?
  {
  }

  /** Digits, a `/` or `M`, and digits from `j` */
  predicate SeparatedFrom(s: string, j: nat)
    requires j <= |s|
  {
    var a := DigitRun(s, j);
    a >= 1 && j + a < |s| && (s[j + a] == '/' || s[j + a] == 'M') && DigitRun(s, j + a + 1) >= 1
  }

  /** The text of a token after its `M` has one of the two shapes the alternatives accept */
  lemma TokenShape(s: string, j: nat, e: nat)
    requires j <= e <= |s|
    requires (|s[j..e]| >= 2 && AllDigits(s[j..e])) || exists q :: 0 <= q < |s[j..e]| && SeparatedAt(s[j..e], q)
    ensures SeparatedFrom(s, j) || DigitRun(s, j) >= 2
  {
    if |s[j..e]| >= 2 && AllDigits(s[j..e]) {
      RunShape(s, j, e);
    } else {
      var q :| 0 <= q < |s[j..e]| && SeparatedAt(s[j..e], q);
      SeparatedShape(s, j, e, q);
    }
  }

  /** Two or more digits from `j` make a digit run of at least two */
  lemma RunShape(s: string, j: nat, e: nat)
    requires j <= e <= |s| && |s[j..e]| >= 2 && AllDigits(s[j..e])
    ensures DigitRun(s, j) >= 2
  {
    var body := s[j..e];
    assert forall k :: j <= k < e ==> s[k] == body[k - j];
    DigitRunAtLeast(s, j, |body|);
  }

  /** Digits, a `/` or `M`, and digits from `j`: the digit run stops at the separator */
  lemma SeparatedShape(s: string, j: nat, e: nat, q: nat)
    requires j <= e <= |s| && SeparatedAt(s[j..e], q)
    ensures DigitRun(s, j) == q && q >= 1 && j + q + 1 < |s|
    ensures (s[j + q] == '/' || s[j + q] == 'M') && DigitRun(s, j + q + 1) >= 1
  {
    var body := s[j..e];
    var first, second := body[..q], body[q + 1..];
    assert forall k :: j <= k < j + q ==> s[k] == first[k - j];
    assert s[j + q] == body[q];
    assert s[j + q + 1] == second[0];
    SeparatedRunsFound(s, j, q);
  }

  /** The text of a token after its optional `M` is what follows `AfterOptionalM` */
  lemma TokenBody(s: string, i: nat, e: nat)
    requires i < e <= |s| && IsTemperatureToken(s[i..e])
    ensures AfterOptionalM(s, i) <= e
    ensures var body := s[AfterOptionalM(s, i)..e];
      (|body| >= 2 && AllDigits(body)) || exists q :: 0 <= q < |body| && SeparatedAt(body, q)
  {
    var w := s[i..e];
    assert (if |w| > 0 && w[0] == 'M' then w[1..] else w) == s[AfterOptionalM(s, i)..e];
  }

  /** Digits, a `/` or `M`, and a digit from `j`: the digit run at `j` stops at the separator */
  lemma SeparatedRunsFound(s: string, j: nat, q: nat)
    requires j + q + 1 < |s| && q >= 1
    requires forall k :: j <= k < j + q ==> IsDigit(s[k])
    requires s[j + q] == '/' || s[j + q] == 'M'
    requires IsDigit(s[j + q + 1])
    ensures DigitRun(s, j) == q && DigitRun(s, j + q + 1) >= 1
  {
    DigitRunAtLeast(s, j, q);
    DigitRunDigits(s, j);
    DigitRunAtLeast(s, j + q + 1, 1);
  }

  /** A run of `n` digits from `j` means the digit run at `j` is at least that long */
  lemma {:induction false} DigitRunAtLeast(s: string, j: nat, n: nat)
    requires j + n <= |s|
    requires forall k :: j <= k < j + n ==> IsDigit(s[k])
    ensures DigitRun(s, j) >= n
    decreases n
  {
    if n > 0 {
      DigitRunAtLeast(s, j + 1, n - 1);
    }
  }

  /** The optional `M` at `i`, as text */
  function MPrefix(s: string, i: nat): (m: string)
    requires i <= |s|
    ensures m == s[i..AfterOptionalM(s, i)]
  {
    if i < |s| && s[i] == 'M' then "M" else ""
  }

  /** An optional `M`, digits, a `/` or `M`, and digits form a token */
  lemma SeparatedIsToken(m: string, d1: string, sep: char, d2: string)
    requires m == "" || m == "M"
    requires |d1| >= 1 && |d2| >= 1 && AllDigits(d1) && AllDigits(d2) && (sep == '/' || sep == 'M')
    ensures IsTemperatureToken(m + d1 + [sep] + d2)
  {
    var w := m + d1 + [sep] + d2;
    var body := d1 + [sep] + d2;
    assert (if |w| > 0 && w[0] == 'M' then w[1..] else w) == body;
    assert body[..|d1|] == d1 && body[|d1| + 1..] == d2;
    assert body[|d1|] == sep;
    assert SeparatedAt(body, |d1|);
  }

  /** An optional `M` and at least two digits form a token */
  lemma RunIsToken(m: string, d: string)
    requires m == "" || m == "M"
    requires |d| >= 2 && AllDigits(d)
    ensures IsTemperatureToken(m + d)
  {
    var w := m + d;
    assert (if |w| > 0 && w[0] == 'M' then w[1..] else w) == d;
  }

  /** Digits, a `/` or `M`, and digits after the optional `M`, ending at `e`, make a token */
  lemma SeparatedToken(s: string, i: nat, a: nat, e: nat)
    requires i <= |s|
    requires AfterOptionalM(s, i) + a + 1 < e <= |s| && a >= 1
    requires s[AfterOptionalM(s, i) + a] == '/' || s[AfterOptionalM(s, i) + a] == 'M'
    requires AllDigits(s[AfterOptionalM(s, i)..AfterOptionalM(s, i) + a])
    requires AllDigits(s[AfterOptionalM(s, i) + a + 1..e])
    ensures IsTemperatureToken(s[i..e])
  {
    var j := AfterOptionalM(s, i);
    assert s[i..e] == MPrefix(s, i) + s[j..j + a] + [s[j + a]] + s[j + a + 1..e];
    SeparatedIsToken(MPrefix(s, i), s[j..j + a], s[j + a], s[j + a + 1..e]);
  }

  /** A run of at least two digits after the optional `M`, ending at `e`, makes a token */
  lemma RunToken(s: string, i: nat, e: nat)
    requires i <= |s|
    requires AfterOptionalM(s, i) + 2 <= e <= |s|
    requires AllDigits(s[AfterOptionalM(s, i)..e])
    ensures IsTemperatureToken(s[i..e])
  {
    var j := AfterOptionalM(s, i);
    assert s[i..e] == MPrefix(s, i) + s[j..e];
    RunIsToken(MPrefix(s, i), s[j..e]);
  }

  /** Every character of the digit run at `i` is a digit */
  lemma {:induction false} DigitRunDigits(s: string, i: nat)
    requires i <= |s|
    ensures forall k :: i <= k < i + DigitRun(s, i) ==> IsDigit(s[k])
    decreases |s| - i
  {
    if DigitRun(s, i) > 0 {
      DigitRunDigits(s, i + 1);
    }
  }

  /** The digit run at `i`, as text */
  lemma DigitRunText(s: string, i: nat, e: nat)
    requires i <= |s| && e == i + DigitRun(s, i)
    ensures AllDigits(s[i..e])
  {
    DigitRunDigits(s, i);
    var run := s[i..e];
    assert forall k :: 0 <= k < |run| ==> run[k] == s[i + k];
  }

  /** The two digit runs around a `/` or `M` after the optional `M`, ending at `e`, make a token */
  lemma SeparatedRuns(s: string, i: nat, a: nat, e: nat)
    requires i <= |s| && AfterOptionalM(s, i) + a < |s|
    requires a == DigitRun(s, AfterOptionalM(s, i)) && a >= 1
    requires s[AfterOptionalM(s, i) + a] == '/' || s[AfterOptionalM(s, i) + a] == 'M'
    requires e == AfterOptionalM(s, i) + a + 1 + DigitRun(s, AfterOptionalM(s, i) + a + 1)
    requires e > AfterOptionalM(s, i) + a + 1
    ensures i < e <= |s|
    ensures IsTemperatureToken(s[i..e])
    ensures e == |s| || !IsDigit(s[e])
  {
    var j := AfterOptionalM(s, i);
    assert AllDigits(s[j..j + a]) && AllDigits(s[j + a + 1..e]) by {
      DigitRunText(s, j, j + a);
      DigitRunText(s, j + a + 1, e);
    }
    SeparatedToken(s, i, a, e);
  }

  /** A digit run of at least two after the optional `M`, ending at `e`, makes a token */
  lemma LongRun(s: string, i: nat, e: nat)
    requires i <= |s|
    requires e == AfterOptionalM(s, i) + DigitRun(s, AfterOptionalM(s, i))
    requires e >= AfterOptionalM(s, i) + 2
    ensures i < e <= |s|
    ensures IsTemperatureToken(s[i..e])
    ensures e == |s| || !IsDigit(s[e])
  {
    assert AllDigits(s[AfterOptionalM(s, i)..e]) by {
      DigitRunText(s, AfterOptionalM(s, i), e);
    }
    RunToken(s, i, e);
  }

  /**
   * What a separated match at `i` ending at `e` promises: a token, not
   * followed by a digit, and no shorter than any other token at `i`
   */
  lemma SeparatedMatch(s: string, i: nat, e: nat)
    requires i <= |s| && SeparatedFrom(s, AfterOptionalM(s, i))
    requires e == SecondRunEnd(s, AfterOptionalM(s, i))
    ensures i < e <= |s|
    ensures IsTemperatureToken(s[i..e])
    ensures e == |s| || !IsDigit(s[e])
    ensures NoLongerToken(s, i, e)
  {
    var a := DigitRun(s, AfterOptionalM(s, i));
    SeparatedRuns(s, i, a, e);
    SeparatedLongest(s, i, e);
  }

  /**
   * What a run match at `i` ending at `e` promises: a token, not followed by
   * a digit, and, when no separated shape follows, no shorter than any other
   * token at `i`
   */
  lemma RunMatch(s: string, i: nat, e: nat)
    requires i <= |s|
    requires e == AfterOptionalM(s, i) + DigitRun(s, AfterOptionalM(s, i))
    requires e >= AfterOptionalM(s, i) + 2
    ensures i < e <= |s|
    ensures IsTemperatureToken(s[i..e])
    ensures e == |s| || !IsDigit(s[e])
    ensures !SlashAfterRun(s, AfterOptionalM(s, i)) && !MAfterRun(s, AfterOptionalM(s, i)) ==> NoLongerToken(s, i, e)
  {
    LongRun(s, i, e);
    if !SlashAfterRun(s, AfterOptionalM(s, i)) && !MAfterRun(s, AfterOptionalM(s, i)) {
      RunLongest(s, i, e);
    }
  }

  /** The leftmost match at or after position `i`: its start and end */
  function SearchFrom(s: string, i: nat): (r: Option<(nat, nat)>)
    requires i <= |s|
    ensures r.Some? ==> i <= r.value.0 < r.value.1 <= |s| && MatchAt(s, r.value.0) == Some(r.value.1)
    ensures r.Some? ==> NoMatchBetween(s, i, r.value.0)
    ensures r.None? ==> NoMatchBetween(s, i, |s| + 1)
    decreases |s| - i
  {
    if i == |s| then
      NoMatchAtEnd(s);
      None
    else
      match MatchAt(s, i)
      case Some(e) => Some((i, e))
      case None =>
        var r := SearchFrom(s, i + 1);
        NoMatchBefore(s, i, if r.Some? then r.value.0 else |s| + 1);
        r
  }

  /** No match starts at any position from `lo` up to, not including, `hi` */
  predicate NoMatchBetween(s: string, lo: nat, hi: nat)
    requires hi <= |s| + 1
  {
    forall p :: lo <= p < hi ==> MatchAt(s, p).None?
  }

  lemma NoMatchBefore(s: string, i: nat, hi: nat)
    requires i < hi <= |s| + 1 && MatchAt(s, i).None? && NoMatchBetween(s, i + 1, hi)
    ensures NoMatchBetween(s, i, hi)
  {
  }

  /** Nothing matches at the end of the text: every alternative needs a digit */
  lemma NoMatchAtEnd(s: string)
    ensures MatchAt(s, |s|).None?
  {
    assert AfterOptionalM(s, |s|) == |s| && DigitRun(s, |s|) == 0;
  }

  /**
   * `temperature_match.group(0)`, as text, or None. The token found starts at
   * the first position where any token of the pattern starts and is the
   * longest token there; there is none only when no token occurs in the line
   * at all.
   */
  function FindTemperature(line: string): (r: Option<string>)
    ensures r.Some? ==> Contains(line, r.value) && IsTemperatureToken(r.value)
    ensures r.Some? ==> exists i ::
      && OccursAt(line, r.value, i)
      && NoTokenBetween(line, 0, i)
      && NoLongerToken(line, i, i + |r.value|)
    ensures r.None? ==> NoTokenBetween(line, 0, |line| + 1)
  {
    match SearchFrom(line, 0)
    case Some((i, e)) =>
      assert OccursAt(line, line[i..e], i) && NoLongerToken(line, i, i + |line[i..e]|);
      NoMatchNoToken(line, 0, i);
      Some(line[i..e])
    case None =>
      NoMatchNoToken(line, 0, |line| + 1);
      None
  }

  /** Where no match starts, no token starts */
  lemma NoMatchNoToken(s: string, lo: nat, hi: nat)
    requires hi <= |s| + 1 && NoMatchBetween(s, lo, hi)
    ensures NoTokenBetween(s, lo, hi)
  {
    forall p: nat | lo <= p < hi
      ensures NoTokenAt(s, p)
    {
      assert MatchAt(s, p).None?;
    }
  }

  /**
   * The local clue that some match exists: a digit followed by a digit, or a
   * digit, a `/` or an `M`, and another digit.
   */
  predicate CueAt(s: string, k: int) {
    && 0 <= k < |s| - 1
    && IsDigit(s[k])
    && (IsDigit(s[k + 1]) || (k + 2 < |s| && (s[k + 1] == '/' || s[k + 1] == 'M') && IsDigit(s[k + 2])))
  }

  /** Every match is one of the two shapes the alternatives accept */
  lemma MatchAtCases(s: string, i: nat)
    requires i <= |s| && MatchAt(s, i).Some?
    ensures SeparatedFrom(s, AfterOptionalM(s, i)) || DigitRun(s, AfterOptionalM(s, i)) >= 2
  {
  }

  /** A match at `i` shows the cue somewhere inside it */
  lemma MatchShowsCue(s: string, i: nat)
    requires i <= |s| && MatchAt(s, i).Some?
    ensures exists k :: i <= k && CueAt(s, k)
  {
    MatchAtCases(s, i);
    ShapeShowsCue(s, i);
  }

  /** Either accepted shape holds the cue */
  lemma ShapeShowsCue(s: string, i: nat)
    requires i <= |s|
    requires SeparatedFrom(s, AfterOptionalM(s, i)) || DigitRun(s, AfterOptionalM(s, i)) >= 2
    ensures exists k :: i <= k && CueAt(s, k)
  {
    var j := AfterOptionalM(s, i);
    var a := DigitRun(s, j);
    RunEnds(s, j);
    if SeparatedFrom(s, AfterOptionalM(s, i)) {
      RunEnds(s, j + a + 1);
      assert CueAt(s, j + a - 1);
    } else {
      assert DigitRun(s, j) == 1 + DigitRun(s, j + 1);
      RunEnds(s, j + 1);
      assert CueAt(s, j);
    }
  }

  /** The first and last characters of a non-empty digit run are digits */
  lemma RunEnds(s: string, i: nat)
    requires i <= |s|
    ensures DigitRun(s, i) >= 1 ==> IsDigit(s[i]) && IsDigit(s[i + DigitRun(s, i) - 1])
  {
    DigitRunDigits(s, i);
  }

  /** The cue at `k` is enough for a match to start at `k` */
  lemma CueMatches(s: string, k: nat)
    requires CueAt(s, k)
    ensures MatchAt(s, k).Some?
  {
    assert AfterOptionalM(s, k) == k;
    var a := DigitRun(s, k);
    if !IsDigit(s[k + 1]) {
      assert DigitRun(s, k + 1) == 0;
      assert a == 1;
      if s[k + 1] == '/' {
        assert DigitRun(s, k + 2) >= 1;
      } else {
        assert DigitRun(s, k + 2) >= 1;
      }
    }
  }

  /** A line has a temperature token exactly when it shows the cue somewhere */
  lemma FindTemperatureIff(line: string)
    ensures FindTemperature(line).Some? <==> exists k :: CueAt(line, k)
  {
    match SearchFrom(line, 0)
    case Some((i, e)) =>
      MatchShowsCue(line, i);
    case None =>
      if exists k :: CueAt(line, k) {
        var k :| CueAt(line, k);
        CueMatches(line, k);
        assert false;
      }
  }
}

=== FILE: text.dfy ===
/**
 * Character classes and the few Python string operations the service uses:
 * `sub in s`, `str.strip()` and `str.split("\n")`. Characters are modelled as
 * Dafny `char`; the regex classes `\d` and `\w` are taken in their ASCII sense.
 */
module Text {

  /** The regex class `\d` (ASCII) */
  predicate IsDigit(c: char) {
    '0' <= c <= '9'
  }

  /** The regex class `[A-Z]` */
  predicate IsUpper(c: char) {
    'A' <= c <= 'Z'
  }

  /** The regex class `\w` (ASCII) */
  predicate IsWordChar(c: char) {
    IsDigit(c) || IsUpper(c) || ('a' <= c <= 'z') || c == '_'
  }

  /** Python's `str.isspace()` for one character: the characters `str.strip()` removes */
  predicate IsSpace(c: char) {
    || ('\U{9}' <= c <= '\U{D}')
    || ('\U{1C}' <= c <= ' ')
    || c == '\U{85}' || c == '\U{A0}' || c == '\U{1680}'
    || ('\U{2000}' <= c <= '\U{200A}')
    || c == '\U{2028}' || c == '\U{2029}' || c == '\U{202F}' || c == '\U{205F}' || c == '\U{3000}'
  }

  /** Which whitespace a strip removes */
  datatype Blanks =
    | StrBlanks  // what `str.strip()` removes: every `str.isspace()` character
    | IntBlanks  // what `int()` skips around a literal

  /**
   * A character of the given whitespace set. `int()` keeps the ASCII
   * separators U+001C to U+001F, which `str.isspace()` counts as whitespace:
   * it turns non-ASCII whitespace into a space, leaves ASCII as it is, and
   * then skips only tab, line feed, vertical tab, form feed, carriage return
   * and space.
   */
  predicate IsBlank(b: Blanks, c: char) {
    IsSpace(c) && (b == StrBlanks || !('\U{1C}' <= c <= '\U{1F}'))
  }

  predicate AllBlank(b: Blanks, s: string) {
    forall k :: 0 <= k < |s| ==> IsBlank(b, s[k])
  }

  predicate AllSpace(s: string) {
    AllBlank(StrBlanks, s)
  }

  /** Python's `sub in s`: `sub` occurs somewhere in `s` as a contiguous substring */
  predicate Contains(s: string, sub: string) {
    exists i :: 0 <= i <= |s| && OccursAt(s, sub, i)
  }

  /** `sub` occurs in `s` starting at index `i` */
  predicate OccursAt(s: string, sub: string, i: int) {
    0 <= i <= |s| - |sub| && s[i..i + |sub|] == sub
  }

  /** Whitespace of set `b` removed from the front of `s` */
  function StripLeft(b: Blanks, s: string): (r: string)
    ensures |r| <= |s| && r == s[|s| - |r|..]
    ensures AllBlank(b, s[..|s| - |r|])
    ensures r == [] || !IsBlank(b, r[0])
  {
    if |s| > 0 && IsBlank(b, s[0]) then
      var r := StripLeft(b, s[1..]);
      StripLeftStep(b, s, r);
      r
    else
      s
  }

  /** Whitespace of set `b` removed from the back of `s` */
  function StripRight(b: Blanks, s: string): (r: string)
    ensures |r| <= |s| && r == s[..|r|]
    ensures AllBlank(b, s[|r|..])
    ensures r == [] || !IsBlank(b, r[|r| - 1])
  {
    if |s| > 0 && IsBlank(b, s[|s| - 1]) then
      var r := StripRight(b, s[..|s| - 1]);
      StripRightStep(b, s, r);
      r
    else
      s
  }

  /** Leading whitespace: one more blank in front of what the rest strips to */
  lemma StripLeftStep(b: Blanks, s: string, r: string)
    requires |s| > 0 && IsBlank(b, s[0])
    requires |r| <= |s| - 1 && r == s[1..][|s| - 1 - |r|..] && AllBlank(b, s[1..][..|s| - 1 - |r|])
    ensures r == s[|s| - |r|..] && AllBlank(b, s[..|s| - |r|])
  {
    var n := |s| - |r|;
    assert s[1..][..n - 1] == s[1..n];
    assert forall k :: 1 <= k < n ==> s[..n][k] == s[1..n][k - 1];
  }

  /** Trailing whitespace: one more blank behind what the rest strips to */
  lemma StripRightStep(b: Blanks, s: string, r: string)
    requires |s| > 0 && IsBlank(b, s[|s| - 1])
    requires |r| <= |s| - 1 && r == s[..|s| - 1][..|r|] && AllBlank(b, s[..|s| - 1][|r|..])
    ensures r == s[..|r|] && AllBlank(b, s[|r|..])
  {
    assert s[|r|..] == s[..|s| - 1][|r|..] + [s[|s| - 1]];
  }

  /**
   * `s` with the whitespace of set `b` removed at both ends: `s` is some
   * blanks, then `r`, then some blanks, and `r` neither starts nor ends with
   * a blank.
   */
  function StripBlanks(b: Blanks, s: string): (r: string)
    ensures exists i :: OccursAt(s, r, i) && AllBlank(b, s[..i]) && AllBlank(b, s[i + |r|..])
    ensures r == [] || (!IsBlank(b, r[0]) && !IsBlank(b, r[|r| - 1]))
  {
    var left := StripLeft(b, s);
    var r := StripRight(b, left);
    StripWitness(b, s, left, r);
    r
  }

  /** Python's `s.strip()` */
  function Strip(s: string): (r: string)
    ensures exists i :: OccursAt(s, r, i) && AllSpace(s[..i]) && AllSpace(s[i + |r|..])
    ensures r == [] || (!IsSpace(r[0]) && !IsSpace(r[|r| - 1]))
  {
    StripBlanks(StrBlanks, s)
  }

  lemma StripWitness(b: Blanks, s: string, left: string, r: string)
    requires |left| <= |s| && left == s[|s| - |left|..] && AllBlank(b, s[..|s| - |left|])
    requires |r| <= |left| && r == left[..|r|] && AllBlank(b, left[|r|..])
    ensures exists i :: OccursAt(s, r, i) && AllBlank(b, s[..i]) && AllBlank(b, s[i + |r|..])
  {
    var i := |s| - |left|;
    assert s[i..i + |r|] == r;
    assert s[i + |r|..] == left[|r|..];
    assert OccursAt(s, r, i);
  }

  /** The index of the first `c` in `s` */
  function IndexOf(s: string, c: char): (i: nat)
    requires c in s
    ensures i < |s| && s[i] == c && c !in s[..i]
  {
    if s[0] == c then 0 else 1 + IndexOf(s[1..], c)
  }

  /** The inverse of `Split`: the pieces glued back with `sep` between them */
  function Join(pieces: seq<string>, sep: char): string
    requires |pieces| >= 1
  {
    if |pieces| == 1 then pieces[0] else pieces[0] + [sep] + Join(pieces[1..], sep)
  }

  /**
   * Python's `s.split(sep)` for a one-character separator: the pieces between
   * consecutive separators, empty pieces included, so there is always one
   * more piece than there are separators.
   */
  function Split(s: string, sep: char): (pieces: seq<string>)
    ensures |pieces| >= 1
    ensures forall k :: 0 <= k < |pieces| ==> sep !in pieces[k]
    ensures Join(pieces, sep) == s
    ensures |pieces| == 1 <==> sep !in s
    decreases |s|
  {
    if sep !in s then [s]
    else
      var i := IndexOf(s, sep);
      var rest := Split(s[i + 1..], sep);
      var pieces := [s[..i]] + rest;
      assert pieces[1..] == rest;
      assert s == s[..i] + [sep] + s[i + 1..];
      pieces
  }

  /** Splitting a joined list of separator-free pieces gives the pieces back */
  lemma {:induction false} SplitJoin(pieces: seq<string>, sep: char)
    requires |pieces| >= 1
    requires forall k :: 0 <= k < |pieces| ==> sep !in pieces[k]
    ensures Split(Join(pieces, sep), sep) == pieces
    decreases |pieces|
  {
    if |pieces| > 1 {
      var tail := pieces[1..];
      assert sep !in pieces[0];
      assert forall k :: 0 <= k < |tail| ==> tail[k] == pieces[k + 1];
      SplitFirst(pieces[0], sep, Join(tail, sep));
      SplitJoin(tail, sep);
      assert [pieces[0]] + tail == pieces;
    }
  }

  /** The first separator of `a + [sep] + b` is the one after `a` when `a` has none */
  lemma {:induction false} IndexOfAfterFree(a: string, sep: char, b: string)
    requires sep !in a
    ensures IndexOf(a + [sep] + b, sep) == |a|
    decreases |a|
  {
    if |a| > 0 {
      assert (a + [sep] + b)[1..] == a[1..] + [sep] + b;
      IndexOfAfterFree(a[1..], sep, b);
    }
  }

  /** Splitting at the first separator: the first piece is `a`, the rest are the pieces of `b` */
  lemma SplitFirst(a: string, sep: char, b: string)
    requires sep !in a
    ensures Split(a + [sep] + b, sep) == [a] + Split(b, sep)
  {
    var s := a + [sep] + b;
    assert s[|a|] == sep;
    IndexOfAfterFree(a, sep, b);
    assert s[..|a|] == a;
    assert s[|a| + 1..] == b;
  }

  /** With at least one separator, the text opens with the first piece and a separator */
  lemma SplitHead(s: string, sep: char)
    requires sep in s
    ensures |Split(s, sep)| >= 2
    ensures |Split(s, sep)[0]| < |s| && s[..|Split(s, sep)[0]| + 1] == Split(s, sep)[0] + [sep]
  {
    var pieces := Split(s, sep);
    assert s == pieces[0] + [sep] + Join(pieces[1..], sep);
  }
}

=== FILE: upstream.dfy ===
/**
 * `fetch_metar_data`, identical in both files: one GET of
 * `METAR_BASE_URL + station_code + ".TXT"`. The network is a parameter: a map
 * from URL to what the GET produced. A 200 status yields the body text, any
 * other status yields None, and a failure to get a response at all (no
 * connection, a timeout) is an exception that `requests.get` raises and
 * nothing in the service catches.
 */
module Upstream {

  const MetarBaseUrl: string := "http://tgftp.nws.noaa.gov/data/observations/metar/stations/"

  /** What one GET produced */
  datatype Reply = Response(status: int, text: string) | TransportError

  /** What `fetch_metar_data` hands back: text, None, or a raised exception */
  datatype Fetched = Text(text: string) | NoText | Raised

  /** The upstream address of a station: base, code verbatim, `.TXT` */
  function MetarUrl(station: string): (url: string)
    ensures |url| == |MetarBaseUrl| + |station| + 4
    ensures url[..|MetarBaseUrl|] == MetarBaseUrl
    ensures url[|MetarBaseUrl|..|url| - 4] == station
    ensures url[|url| - 4..] == ".TXT"
  {
    MetarBaseUrl + station + ".TXT"
  }

  /** Different station codes build different URL strings */
  lemma MetarUrlInjective(a: string, b: string)
    requires MetarUrl(a) == MetarUrl(b)
    ensures a == b
  {
    var u := MetarUrl(a);
    assert a == u[|MetarBaseUrl|..|u| - 4] == b;
  }

  /** `fetch_metar_data`: text exactly on a 200 response from the station's address */
  function FetchMetar(network: string -> Reply, station: string): (f: Fetched)
    ensures f.Text? <==> network(MetarUrl(station)).Response? && network(MetarUrl(station)).status == 200
    ensures f.Text? ==> f.text == network(MetarUrl(station)).text
    ensures f.Raised? <==> network(MetarUrl(station)).TransportError?
  {
    match network(MetarUrl(station))
    case Response(status, text) => if status == 200 then Text(text) else NoText
    case TransportError => Raised
  }
}

=== FILE: wrappers.dfy ===
/** The Some/None datatype used for every "value or Python None" in the model. */
module Wrappers {

  datatype Option<+T> = None | Some(value: T) {

    /** A None is the failure case; `:-` stops at it and passes it on */
    predicate IsFailure() {
      None?
    }

    /** A None of one value type passed on as a None of another */
    function PropagateFailure<U>(): Option<U>
      requires None?
    {
      None
    }

    /** The value held by a Some */
    function Extract(): T
      requires Some?
    {
      value
    }
  }
}
